=== FILE: README.md ===
# Forge language extension for VS Code — a Dafny model of its core

The extension runs Forge (`.frg`) files through Racket and turns Racket's
error output into editor diagnostics. Three pieces of real logic are modelled
here:

- **The server-side locator and offset mapper** (`validateTextDocument` in
  `server/src/server.ts`). Racket's stderr is collected behind an initial
  `"\n"`. A (line, column) pair is extracted from it: the keyed
  `line=N` / `column=M` fields first, then the `rkt:L:C:` form. The
  document's `\n`-terminated lines are walked to turn that pair into a
  character-offset range, and one Warning diagnostic is published for the
  document.
- **The client-side Forge locator** (`matchForgeError`, `sendEvalErrors` and
  the terminal-link provider in `client/src/extension.ts`). It finds the
  first stderr line holding a `name.frg:L:C` token and turns the 1-based
  position into a 0-based, one-character diagnostic and a cursor position. It
  offers a terminal link only when the captured file name is the last path
  component of the active file.
- **The single-slot run supervisor** (`racketGlobal` with `runFile`,
  `stopRun`, `killRacket`, the stdout relay, the `.frg` extension guard and
  clear-on-edit/close). It is a pure state machine stepped by a sequential
  trace of events: Run, Stop, Stdout, Stderr, Exit, Changed and Closed.
  Every step returns the next state and the list of effects it asks of the
  editor.

Modules:

| file | module | what |
|---|---|---|
| `common.dfy` | `Common` | the optional value, the minimum, and the LSP diagnostic severities both halves use |
| `strings.dfy` | `Strings` | digits and `parseInt` on digit runs, number printing, scanning runs, splitting on a character class, joining, last path component, concatenation |
| `server_locator.dfy` | `ServerLocator` | the non-global `exec` of `line=(\d+)`, `column=(\d+)` and `rkt:(\d+):(\d+):`, and the keyed-first choice |
| `offset_mapper.dfy` | `OffsetMapper` | the global `exec` of `/(.*)\n/g` and the loop that maps (line, column) to offsets |
| `server_validation.dfy` | `ServerValidation` | the stderr buffer, the diagnostic, and the publication that replaces the document's list |
| `forge_locator.dfy` | `ForgeLocator` | `/[\\/]*?([^\\/\n\s]*\.frg):(\d+):(\d+):?/` with JavaScript's leftmost, lazy-then-greedy backtracking semantics |
| `forge_client.dfy` | `ForgeClient` | `sendEvalErrors`, terminal links, the `.frg` guard, the stdout relay |
| `run_supervisor.dfy` | `RunSupervisor` | the run slot as an event machine |

Both regular expressions are modelled in full, not approximated. Offsets
count characters (Unicode scalar values), as listed under "Left out":

- `OffsetMapper.ExecLine` reproduces `/(.*)\n/g`, including `.` refusing
  `\r`, U+2028 and U+2029. On such text a match may begin after the `\r`
  rather than at the line start. The line-by-line characterisation
  (`MappedRangeOnLines`) takes "the text has no other line terminator" as a
  hypothesis; it is not a precondition of the mapper itself.
- `ForgeLocator.MatchAt` reproduces the lazy separator prefix and the greedy
  name capture, which backtracks to the last `.frg:` that is followed by
  `digits:digit`. `MatchForgeErrorSpec` ties it to an independent,
  declarative description of the leftmost match (`TokenAt`,
  `IsLeftmostMatch`, `Describes`).

Behaviour of the code that a reader might not expect, which the model
keeps:

- The server adds the column to the line's start offset without subtracting
  1, and the range ends just past the line's `\n`. So on `"ab\ncd\n"` line 2,
  column 1 maps to offsets [4, 6), not [3, 5) (`ColumnIsNotDecremented`).
- The server recognises only `line=`/`column=` and `rkt:L:C:`; with neither
  in stderr the range is [0, 0) (`UnlocatedRangeIsEmpty`). The server
  ignores Racket's exit code, and it has no notion of superseding an earlier
  validation: each run publishes its own list.
- `stopRun` kills the process but leaves `racketGlobal` in place. The killed
  process's exit is therefore still the current one's: it reports, clears the
  slot and may set diagnostics, unless its report throws as the next item describes (`StopKeepsGlobal`,
  `StopThenExitStillReports`). Only a newer Run silences an older process.
- A Forge locator with line or column 0 gives a cursor of −1, and
  `new vscode.Position` throws on it. `sendEvalErrors` then sets no
  diagnostic and opens nothing, and the exit callback stops after appending
  the stderr: "Forge exited." is not appended and the slot stays occupied, so
  the next Stop or Run announces the termination again
  (`FirstMatchingLineWins`, `ExitReports`, `RejectedExitKeepsSlot`).
  Following a terminal link for such a line throws the same way.

## Model

| member | source | states |
|---|---|---|
| ServerLocator.FindKeyed | server/src/server.ts:133-137 | `exec` with a non-global pattern finds the leftmost `key` followed by digits, and its digit value. It finds none exactly when the key-with-digit occurs nowhere. |
| ServerLocator.FindRktFrom | server/src/server.ts:190-194 | the scan for `rkt:L:C:` returns the first tag at or after the start, and there is no tag before it. None means there is no tag anywhere after the start. |
| ServerLocator.Locate | server/src/server.ts:177-195 | when both `line=` and `column=` occur, their first occurrences give the pair. Only when one of them is missing is the first `rkt:L:C:` used. With neither, the location is (0, 0). |
| ServerLocator.FirstKeyedUnique | server/src/server.ts:133-137 | the first occurrence of a key is unique, so the keyed value is well defined. |
| ServerLocator.FirstRktUnique | server/src/server.ts:190 | the first `rkt:` tag is unique. |
| ServerValidation.CollectStderr | server/src/server.ts:159-170 | the buffer is `"\n"` followed by the concatenated chunks. It still equals `"\n"` exactly when every chunk was empty. |
| ServerValidation.CollectStderrAppend | server/src/server.ts:167-170 | each arriving chunk extends the buffer at its end, so chunks appear in arrival order. |
| ServerValidation.UnlocatedRangeIsEmpty | server/src/server.ts:174-197 | with neither the keyed pair nor an `rkt:` tag in stderr, the diagnostic's range is start = end = 0. |
| ServerValidation.Validate | server/src/server.ts:173-235 | at most one diagnostic is published. There is none exactly when no stderr arrived. Otherwise it is a Warning with source `Racket REPL`, a message made of the prefix and the whole buffer, and the located range. Related information is attached exactly when the client supports it, and it repeats the range and the buffer. |
| ServerValidation.Apply | server/src/server.ts:235 | a publication replaces its document's list and leaves every other document's list alone. |
| ServerValidation.LastPublicationWins | server/src/server.ts:145-235 | after several publications for one document only the last publication's list is visible, so diagnostics never accumulate. A slower, earlier run that publishes last wins. |
| OffsetMapper.ExecLine | server/src/server.ts:201-202 | one `exec` of `/(.*)\n/g` from `lastIndex` returns a non-empty match that starts at or after `lastIndex` and ends within the text. |
| OffsetMapper.ExecLineSpec | server/src/server.ts:201-202 | a match of `/(.*)\n/g` from `lastIndex` ends at a `\n`, and its body holds no line terminator. It starts at `lastIndex` or just after a terminator. There is no match exactly when no `\n` lies ahead. |
| OffsetMapper.MappedRange | server/src/server.ts:197-207 | the range the loop leaves never ends past the text. Its end is 0 exactly when the line is 0 or the text has no match. Otherwise it ends just past a `\n` and starts at least `column` into the text. |
| OffsetMapper.ScanRange | server/src/server.ts:197-207 | the loop, with its invariants, leaves exactly the range of match min(line, matches), or (0, 0) when the line is 0 or nothing matches. |
| OffsetMapper.NewlinesFromExact | server/src/server.ts:201 | the reference list of `\n` positions is strictly increasing and holds every `\n` at or after the start, and nothing else. |
| OffsetMapper.ExecLineOnCleanText | server/src/server.ts:201-202 | on text whose only line terminator is `\n`, every match begins exactly at `lastIndex`. |
| OffsetMapper.CleanMatchesFrom | server/src/server.ts:201-202 | on such text the successive matches are exactly the `\n`-terminated lines. Each one ends just past its `\n` and begins just past the previous one. |
| OffsetMapper.MappedRangeOnLines | server/src/server.ts:200-207 | for 1 ≤ L ≤ k, where k is the number of `\n`, the range is [start of line L + C, just past line L's `\n`). Line 0, or text without `\n`, gives (0, 0). L > k gives the range for line k. |
| OffsetMapper.MappedRangeBounds | server/src/server.ts:202-205 | for L ≥ 1 and k ≥ 1, the end lies within the text just past a `\n`, and the start is at or after the chosen line's start. Nothing bounds the start by the end. |
| OffsetMapper.ColumnIsNotDecremented | server/src/server.ts:204-205 | line 2, column 1 of `"ab\ncd\n"` maps to [4, 6): the column is added as is, and the end is past the `\n`. |
| ForgeLocator.MatchAt | client/src/extension.ts:28 | an attempt at one start reports that start and puts capture 1 after the run of separators there. Both number captures are digits, and the match lies within the line. |
| ForgeLocator.MatchAtToken | client/src/extension.ts:28 | a successful attempt captures the longest possible name: no `.frg:L:C` token further right in the same run of name characters. |
| ForgeLocator.MatchAtNone | client/src/extension.ts:28 | a failed attempt means no token starts after the separators at that start. |
| ForgeLocator.LastTailFindsGreatestToken | client/src/extension.ts:28 | the backward search over the run of name characters finds the greatest position that completes a token, or proves there is none. |
| ForgeLocator.TailAtIffToken | client/src/extension.ts:28 | after a run of name characters, the scanned tail `.frg:digits:digit` succeeds exactly when the declarative token exists. |
| ForgeLocator.MatchFrom | client/src/extension.ts:29 | the search returns the first start whose attempt succeeds. No earlier start succeeds, and None means no start does. |
| ForgeLocator.MatchForgeError | client/src/extension.ts:27-30 | a match's line and column captures are digit strings, and its span [index, index + length) lies within the line. |
| ForgeLocator.MatchForgeErrorSpec | client/src/extension.ts:27-30 | `match` fails exactly when the line holds no `name.frg:L:C` token. A success is the leftmost possible match, with captures and length as the pattern defines them. |
| ForgeLocator.StartAfterSeparator | client/src/extension.ts:28 | the leftmost match never starts just after a path separator that a failed attempt skipped. |
| ForgeLocator.MatchShape | client/src/extension.ts:27-30 | a match's file name ends in `.frg` and holds no `/`, `\`, newline or whitespace. Line and column are non-empty digit strings, and the span [index, index + length) lies in the line. |
| ForgeClient.FirstMatch | client/src/extension.ts:50-57 | the line loop stops at the lowest-index matching line. No line before it matches, and None means no line matches. |
| ForgeClient.EvalDiagnostic | client/src/extension.ts:61-75 | for a match (L, C) the range is (L−1, C−1)–(L−1, C), one character wide. The message is the prefix followed by L−1 written in decimal, with no leading zero. |
| ForgeClient.SendEvalErrors | client/src/extension.ts:48-82 | with no matching line the diagnostics are untouched and the file opens unpositioned, and only then. A call that completes opens the given file, and any cursor it places is non-negative. |
| ForgeClient.FirstMatchingLineWins | client/src/extension.ts:50-78 | when line i is the first match (L, C), the call throws exactly when L or C is 0. Otherwise the file's diagnostic list becomes exactly that one diagnostic and the file opens at (L−1, C−1). Later lines are ignored. |
| ForgeClient.EvalDiagnosticShape | client/src/extension.ts:64-78 | a completed, positioned report sets one Error diagnostic with source `Racket` for the file, starting at the cursor, and keeps every other file's list. |
| ForgeClient.ProvideTerminalLinks | client/src/extension.ts:109-141 | at most one link is offered. It is offered exactly when a match's file name equals the last `/`- or `\`-component of the active path. It spans the match and carries the 0-based line and column and the tooltip `path:line:col`. |
| ForgeClient.LinkAgreesWithEvalErrors | client/src/extension.ts:110-150 | following a link throws exactly when `sendEvalErrors` would throw for that line. Otherwise it opens the same file at the same position. |
| ForgeClient.LinkedFileIsActive | client/src/extension.ts:114-119 | a link is offered only when the active file itself has the `frg` extension. |
| ForgeClient.ActiveNameIsFrg | client/src/extension.ts:117-119 | the last path component is a suffix of the path, preceded by a separator when shorter than it. If it ends in `.frg`, so does the path. |
| ForgeClient.FrgExtensionIff | client/src/extension.ts:169 | the last `.`-piece of a path is `frg` exactly when the path is `frg` or ends in `.frg`. |
| ForgeClient.Relay | client/src/extension.ts:198-207 | a chunk with n newlines gives n + 1 lines. No line is the Sterling prompt, and no line holds a `\n`. |
| ForgeClient.RelayFaithful | client/src/extension.ts:198-207 | a line differs from its piece only when the piece was the exact prompt, and then it is the rewritten notice. Without the prompt, joining the lines with `\n` gives the chunk back. |
| RunSupervisor.Step | client/src/extension.ts:158-242 | every step keeps the state well formed. Only a Run of a `.frg` file installs a new, fresh process in the slot. Stdout, stderr and exit from a process that is not current change nothing and emit nothing. |
| RunSupervisor.RunSupersedes | client/src/extension.ts:158-190 | a Run of a `.frg` file saves, then kills the current process if there is one, then clears and shows the output. It then spawns a fresh process with an empty stderr buffer, makes it current, and announces it. Diagnostics are untouched. |
| RunSupervisor.RunRejectsOtherFiles | client/src/extension.ts:160-173 | a Run of any other file only saves and shows the information message. Nothing else changes. |
| RunSupervisor.StopKeepsGlobal | client/src/extension.ts:240-242 | Stop kills the current process but leaves the state, the slot included, unchanged. |
| RunSupervisor.ExitReports | client/src/extension.ts:220-237 | Without stderr, the current process's exit opens the file unpositioned, appends `Finished running.` and empties the slot. With stderr, it appends the stderr and runs `sendEvalErrors` on it split on `\n` and `\r`. If that completes, it applies its report, appends `Forge exited.` and empties the slot. If it throws, nothing else happens and the state is unchanged. |
| RunSupervisor.RejectedExitKeepsSlot | client/src/extension.ts:226-242 | after an exit whose report throws, the process is still current, so a following Stop announces and kills it again. |
| RunSupervisor.StdoutRelayed | client/src/extension.ts:192-208 | stdout from the current process appends the relayed lines in order and changes no state. |
| RunSupervisor.StderrAccumulates | client/src/extension.ts:210-218 | a sequence of stderr chunks from the current process appends them, in order, to its buffer alone, with no visible effect: the set of tracked processes, the diagnostics and the next id are unchanged. |
| RunSupervisor.EditClearsDiagnostics | client/src/extension.ts:84-94 | editing or closing a document removes its Forge diagnostics, so exactly that document leaves the diagnostics map, and keeps every other document's; the processes and the next id are unchanged. |
| RunSupervisor.SupersededProcessIsSilent | client/src/extension.ts:193-196 | once a process is no longer current, deleting all of its events from any later trace changes neither the final state nor the effects. |
| RunSupervisor.SupersededExitIsSilent | client/src/extension.ts:221-224 | after a second Run, the first process's exit does nothing. |
| RunSupervisor.StopThenExitStillReports | client/src/extension.ts:240-242 | when the process wrote no stderr, Stop followed by the killed process's exit still reports `Finished running.` and empties the slot. |
| Strings.JoinSplit | client/src/extension.ts:198 | splitting on one character and joining with it gives the string back. |
| Strings.LastPieceIsSuffix | client/src/extension.ts:117 | the last piece of `split(...).pop()` is the suffix after the last separator, or the whole string when there is none. |
| Strings.IntToString | client/src/extension.ts:127 | the decimal rendering of an integer reads back to its value, has a leading `-` for negatives, and has no leading zero. |

## Left out

- LSP wiring: connection set-up, capability negotiation, the settings cache and the placeholder completion handlers. The related-information capability is a parameter of `Validate`.
- Spawning `echo` and `racket` through a shell: the fixed temporary path, the quoting of the document text and the Racket command line (`getRacketPath`). A process is an opaque id allocated by the supervisor's counter, and its output arrives as events. Failure to spawn is not modelled.
- `positionAt`: the server's ranges stay as character offsets.
- VS Code objects (`Range`, `Uri`, output channel, commands). A document's URI and its file-system path are one string. `Position` is a pair of integers; its constructor's rejection of a negative coordinate is modelled as the `Threw` outcome.
- UTF-16 offsets: JavaScript counts string indexes and lengths (`m.index`, `m[0].length`, `matcher.index`) in UTF-16 code units, while the model counts characters. The two agree on text made only of Basic Multilingual Plane characters. After a character outside it, such as an emoji, every JavaScript offset is one larger per such character.
- `console.log` and `console.error` calls, including the ones in the callbacks of a superseded process: they write to the developer console, not to anything the user sees.
- `activeTextEditor` being undefined: the active path is a parameter.
- Real asynchrony and chunk boundaries: events form one sequential trace. A stdout line split across two chunks is relayed as two lines, as in the code.
- JavaScript `parseInt` beyond safe integers: digit strings read as unbounded naturals.
- `deactivate` and the language-client start-up.
- `ServerValidation.Validate`: states the range as the located offsets (`DiagnosticRange`), not as editor positions, because `positionAt` is not modelled.

=== FILE: common.dfy ===
/** Definitions both halves of the extension share: an optional value (the
    source's `null` / `undefined`), the minimum of two integers, and the
    Language Server Protocol's diagnostic severities, which the server and
    the client both attach to their diagnostics. */
module Common {

  datatype Option<+T> = None | Some(value: T)

  function Min(a: int, b: int): int { if a <= b then a else b }

  datatype DiagnosticSeverity = Error | Warning | Information | Hint
}

=== FILE: forge_client.dfy ===
/** The client's uses of the Forge locator (client/src/extension.ts):
    `sendEvalErrors` turns the first matching stderr line into one Error
    diagnostic and a cursor position, the terminal-link provider offers a
    link for a line naming the active file, the run command accepts only
    files whose last `.`-piece is `frg`, and the stdout relay rewrites one
    sentinel line. Editor positions are zero-indexed integers; they are
    computed as the source computes them, so they can be -1, and then the
    `Position` constructor throws and the callback stops there. */
module ForgeClient {
  import opened Common
  import opened Strings
  import opened ForgeLocator

  datatype Position = Position(line: int, character: int)

  datatype Range = Range(start: Position, end: Position)

  /** `new vscode.Position(line, character)` throws unless both are
      non-negative. */
  predicate IsValidPosition(p: Position) { p.line >= 0 && p.character >= 0 }

  /** How a callback that builds a `Position` ends: with its value, or with
      the exception the constructor throws for a negative coordinate, which
      abandons everything the callback had still to do. */
  datatype Outcome<+T> = Completed(value: T) | Threw

  datatype ClientDiagnostic = ClientDiagnostic(
    severity: DiagnosticSeverity,
    range: Range,
    message: string,
    source: string)

  /** `showFileWithOpts(path, line, column)`: open the file, with the cursor
      placed at `at` when one is given. */
  datatype OpenRequest = OpenRequest(path: string, at: Option<Position>)

  /** The diagnostics the `Forge Eval` collection holds, by file. */
  type Diagnostics = map<string, seq<ClientDiagnostic>>

  const EvalMessagePrefix := "Forge Evaluation Error: "
  const RacketSource := "Racket"

  /** A matching stderr line: its position in the list and the match. */
  datatype LineHit = LineHit(at: nat, m: ForgeMatch)

  /** `matchForgeError` applied to every line, in order. */
  function MatchEach(lines: seq<string>): (rs: seq<Option<ForgeMatch>>)
    ensures |rs| == |lines|
    ensures forall j :: 0 <= j < |lines| ==> rs[j] == MatchForgeError(lines[j])
  {
    if |lines| == 0 then [] else [MatchForgeError(lines[0])] + MatchEach(lines[1..])
  }

  /** The loop of `sendEvalErrors` from line `i` on, over the lines' match
      results: it stops at the first line that matched. */
  function FirstHitFrom(rs: seq<Option<ForgeMatch>>, i: nat): (r: Option<LineHit>)
    requires i <= |rs|
    ensures r.Some? ==> i <= r.value.at < |rs| && rs[r.value.at] == Some(r.value.m)
    ensures r.Some? ==> forall j :: i <= j < r.value.at ==> rs[j].None?
    ensures r.None? <==> forall j :: i <= j < |rs| ==> rs[j].None?
    decreases |rs| - i
  {
    if i == |rs| then None
    else
      match rs[i]
      case Some(m) => Some(LineHit(i, m))
      case None => FirstHitFrom(rs, i + 1)
  }

  /** `sendEvalErrors`'s search: the lowest-indexed line `matchForgeError`
      accepts, or nothing when no line matches. */
  function FirstMatch(lines: seq<string>): (r: Option<LineHit>)
    ensures r.Some? ==> r.value.at < |lines| && MatchForgeError(lines[r.value.at]) == Some(r.value.m)
    ensures r.Some? ==> forall j :: 0 <= j < r.value.at ==> MatchForgeError(lines[j]).None?
    ensures r.None? <==> forall j :: 0 <= j < |lines| ==> MatchForgeError(lines[j]).None?
  {
    FirstHitFrom(MatchEach(lines), 0)
  }

  /** `parseInt(matcher[2]) - 1` and `parseInt(matcher[3]) - 1`: the
      zero-indexed cursor for a 1-indexed `L:C` locator. */
  function CursorOf(m: ForgeMatch): Position
    requires AllDigits(m.lineDigits) && AllDigits(m.colDigits)
  {
    Position(m.Line() - 1, m.Column() - 1)
  }

  /** The diagnostic `sendEvalErrors` builds for a match: one character wide
      at the cursor, with the zero-indexed line in its message. */
  function EvalDiagnostic(m: ForgeMatch): (d: ClientDiagnostic)
    requires AllDigits(m.lineDigits) && AllDigits(m.colDigits)
    ensures d.range.start == CursorOf(m)
    ensures d.range.end.line == d.range.start.line && d.range.end.character == d.range.start.character + 1
    ensures |d.message| > |EvalMessagePrefix| && d.message[..|EvalMessagePrefix|] == EvalMessagePrefix
    ensures m.Line() >= 1 ==>
      var digits := d.message[|EvalMessagePrefix|..];
      && AllDigits(digits) && DigitsValue(digits) == m.Line() - 1
      && (digits[0] == '0' ==> digits == "0")
  {
    var cursor := CursorOf(m);
    var d := ClientDiagnostic(
      Error,
      Range(cursor, Position(cursor.line, cursor.character + 1)),
      EvalMessagePrefix + IntToString(cursor.line),
      RacketSource);
    assert d.message[|EvalMessagePrefix|..] == IntToString(cursor.line);
    d
  }

  /** What `sendEvalErrors` leaves behind: the updated collection and the
      request to open the file. */
  datatype EvalReport = EvalReport(diagnostics: Diagnostics, open: OpenRequest)

  /** `sendEvalErrors(lines, uri, collection)`: the first matching line wins;
      its diagnostic replaces the file's set and the file opens at its
      cursor. Without a match the collection is untouched and the file opens
      unpositioned. A match whose line or column is 0 gives a negative
      cursor: the `Position` built from it throws before the collection is
      set or the file opened. */
  function SendEvalErrors(lines: seq<string>, path: string, diags: Diagnostics): (r: Outcome<EvalReport>)
    ensures r.Completed? ==> r.value.open.path == path
    ensures r.Completed? && r.value.open.at.Some? ==> IsValidPosition(r.value.open.at.value)
    ensures (forall j :: 0 <= j < |lines| ==> MatchForgeError(lines[j]).None?) <==>
      r == Completed(EvalReport(diags, OpenRequest(path, None)))
  {
    match FirstMatch(lines)
    case None => Completed(EvalReport(diags, OpenRequest(path, None)))
    case Some(hit) =>
      var cursor := CursorOf(hit.m);
      if !IsValidPosition(cursor) then Threw
      else Completed(EvalReport(diags[path := [EvalDiagnostic(hit.m)]], OpenRequest(path, Some(cursor))))
  }

  /** When line `i` is the first that matches, its match alone decides the
      outcome: the file's set becomes that one diagnostic and the cursor is
      the match's zero-indexed position; later lines are ignored. A line or
      column of 0 makes the call throw instead. */
  lemma FirstMatchingLineWins(lines: seq<string>, path: string, diags: Diagnostics, i: nat)
    requires i < |lines| && MatchForgeError(lines[i]).Some?
    requires forall j :: 0 <= j < i ==> MatchForgeError(lines[j]).None?
    ensures var m := MatchForgeError(lines[i]).value; var r := SendEvalErrors(lines, path, diags);
      && (r.Threw? <==> m.Line() == 0 || m.Column() == 0)
      && (r.Completed? ==>
           && r.value.diagnostics == diags[path := [EvalDiagnostic(m)]]
           && r.value.open == OpenRequest(path, Some(CursorOf(m))))
  {
    var hit := FirstMatch(lines).value;
    FirstHitUnique(MatchEach(lines), hit.at, i);
    assert hit.m == MatchForgeError(lines[i]).value;
    assert IsValidPosition(CursorOf(hit.m)) <==> hit.m.Line() != 0 && hit.m.Column() != 0;
  }

  /** Only one position can be the first hit. */
  lemma FirstHitUnique(rs: seq<Option<ForgeMatch>>, a: nat, b: nat)
    requires a < |rs| && rs[a].Some? && forall j :: 0 <= j < a ==> rs[j].None?
    requires b < |rs| && rs[b].Some? && forall j :: 0 <= j < b ==> rs[j].None?
    ensures a == b
  {
  }

  /** The diagnostic `sendEvalErrors` stores has severity Error, source
      `Racket`, and sits under the opened cursor. */
  lemma EvalDiagnosticShape(lines: seq<string>, path: string, diags: Diagnostics)
    requires SendEvalErrors(lines, path, diags).Completed?
    requires SendEvalErrors(lines, path, diags).value.open.at.Some?
    ensures var r := SendEvalErrors(lines, path, diags).value;
      && path in r.diagnostics && |r.diagnostics[path]| == 1
      && r.diagnostics[path][0].severity == Error
      && r.diagnostics[path][0].source == RacketSource
      && r.diagnostics[path][0].range.start == r.open.at.value
      && (forall u :: u in diags && u != path ==> u in r.diagnostics && r.diagnostics[u] == diags[u])
  {
    CompletedReport(lines, path, diags);
    ReportShape(diags, path, FirstMatch(lines).value.m);
  }

  /** Storing a match's diagnostic: one Error from `Racket` at the match's
      cursor, and every other file's list kept. */
  lemma ReportShape(diags: Diagnostics, path: string, m: ForgeMatch)
    requires AllDigits(m.lineDigits) && AllDigits(m.colDigits)
    ensures var ds := diags[path := [EvalDiagnostic(m)]];
      && path in ds && |ds[path]| == 1
      && ds[path][0].severity == Error
      && ds[path][0].source == RacketSource
      && ds[path][0].range.start == CursorOf(m)
      && (forall u :: u in diags && u != path ==> u in ds && ds[u] == diags[u])
  {
  }

  /** A completed call either found no line, or applied the first hit's
      diagnostic and cursor. */
  lemma CompletedReport(lines: seq<string>, path: string, diags: Diagnostics)
    requires SendEvalErrors(lines, path, diags).Completed?
    ensures var r := SendEvalErrors(lines, path, diags).value;
      && (FirstMatch(lines).None? ==> r == EvalReport(diags, OpenRequest(path, None)))
      && (FirstMatch(lines).Some? ==>
           var m := FirstMatch(lines).value.m;
           r == EvalReport(diags[path := [EvalDiagnostic(m)]], OpenRequest(path, Some(CursorOf(m)))))
  {
  }

  /** A link the terminal shows: the span of the match in the terminal line,
      the file to open and the zero-indexed position (absent on links that
      do not carry one). */
  datatype TerminalLink = TerminalLink(
    startIndex: nat,
    length: nat,
    tooltip: string,
    filePath: string,
    line: Option<int>,
    column: int)


  /** `provideTerminalLinks`: a link only for a line whose captured file name
      is the last path component of the active file. */
  function ProvideTerminalLinks(lineText: string, activePath: string): (links: seq<TerminalLink>)
    ensures |links| <= 1
    ensures |links| == 1 <==>
      MatchForgeError(lineText).Some? && MatchForgeError(lineText).value.name == LastPiece(activePath, PathSeparators)
    ensures |links| == 1 ==>
      var m := MatchForgeError(lineText).value;
      var cursor := CursorOf(m);
      && links[0].startIndex == m.index
      && links[0].startIndex + links[0].length <= |lineText|
      && links[0].length == m.length
      && links[0].filePath == activePath
      && links[0].line == Some(cursor.line)
      && links[0].column == cursor.character
      && links[0].tooltip == activePath + ":" + IntToString(cursor.line) + ":" + IntToString(cursor.character)
  {
    match MatchForgeError(lineText)
    case None => []
    case Some(m) =>
      if m.name != LastPiece(activePath, PathSeparators) then []
      else
        var cursor := CursorOf(m);
        var tooltip := activePath + ":" + IntToString(cursor.line) + ":" + IntToString(cursor.character);
        [TerminalLink(m.index, m.length, tooltip, activePath, Some(cursor.line), cursor.character)]
  }

  /** `handleTerminalLink`: open at the link's position, or unpositioned when
      the link has no line; a negative position throws in
      `showFileWithOpts` and nothing opens. */
  function HandleTerminalLink(link: TerminalLink): (r: Outcome<OpenRequest>)
    ensures r.Completed? ==> r.value.path == link.filePath
    ensures r.Completed? && r.value.at.Some? ==> IsValidPosition(r.value.at.value)
    ensures r.Threw? ==> link.line.Some?
  {
    if link.line.None? then Completed(OpenRequest(link.filePath, None))
    else
      var at := Position(link.line.value, link.column);
      if IsValidPosition(at) then Completed(OpenRequest(link.filePath, Some(at))) else Threw
  }

  /** Following a terminal link for a stderr line opens the active file at the
      same cursor that `sendEvalErrors` uses for that line, and throws exactly
      when `sendEvalErrors` would. */
  lemma LinkAgreesWithEvalErrors(lineText: string, activePath: string)
    requires |ProvideTerminalLinks(lineText, activePath)| == 1
    ensures var h := HandleTerminalLink(ProvideTerminalLinks(lineText, activePath)[0]);
      var e := SendEvalErrors([lineText], activePath, map[]);
      && (h.Threw? <==> e.Threw?)
      && (h.Completed? ==> h.value == e.value.open)
  {
    var m := MatchForgeError(lineText).value;
    MatchShape(lineText);
    assert FirstMatch([lineText]) == Some(LineHit(0, m));
  }

  /** A link is offered only while the active file is a `.frg` file whose
      name, after its last separator, is the captured name. */
  lemma LinkedFileIsActive(lineText: string, activePath: string)
    requires |ProvideTerminalLinks(lineText, activePath)| == 1
    ensures HasFrgExtension(activePath)
  {
    MatchShape(lineText);
    ActiveNameIsFrg(activePath, MatchForgeError(lineText).value.name);
  }

  /** A last path component ending in `.frg` makes the whole path pass the
      run command's guard. */
  lemma ActiveNameIsFrg(path: string, name: string)
    requires name == LastPiece(path, PathSeparators)
    requires |name| >= 4 && name[|name| - 4..] == Extension
    ensures |name| <= |path| && path[|path| - |name|..] == name
    ensures |name| < |path| ==> path[|path| - |name| - 1] in PathSeparators
    ensures HasFrgExtension(path)
  {
    LastPieceIsSuffix(path, PathSeparators);
    assert path[|path| - 4..] == name[|name| - 4..];
    FrgExtensionIff(path);
  }

  /** `filepath.split(/\./).pop() === 'frg'`, the run command's guard. */
  predicate HasFrgExtension(path: string)
  {
    LastPiece(path, {'.'}) == "frg"
  }

  /** The guard accepts exactly the paths that end in `.frg`, and the bare
      name `frg`. */
  lemma FrgExtensionIff(path: string)
    ensures HasFrgExtension(path) <==>
      path == "frg" || (|path| >= 4 && path[|path| - 4..] == Extension)
  {
    var t := LastPiece(path, {'.'});
    LastPieceIsSuffix(path, {'.'});
    if |path| >= 4 && path[|path| - 4..] == Extension {
      assert path == path[..|path| - 4] + ['.'] + "frg";
      LastPieceAfterSeparator(path[..|path| - 4], '.', "frg", {'.'});
    }
    if HasFrgExtension(path) && path != "frg" {
      assert |t| < |path|;
      assert path[|path| - 4..] == [path[|path| - 4]] + t;
    }
  }

  const SterlingPrompt := "Sterling running. Hit enter to stop service."
  const SterlingNotice := "Sterling running. Hit Stop to stop service."

  /** One output line for a stdout piece: the sentinel is rewritten, every
      other piece passes through. */
  function RelayLine(piece: string): (line: string)
    ensures line != SterlingPrompt
    ensures NoneIn(piece, {'\n'}) ==> NoneIn(line, {'\n'})
  {
    if piece == SterlingPrompt then
      assert SterlingPrompt[22] == 'e' && SterlingNotice[22] == 'S';
      SterlingNotice
    else piece
  }

  function RelayPieces(pieces: seq<string>): (lines: seq<string>)
    ensures |lines| == |pieces|
    ensures forall i :: 0 <= i < |pieces| ==> lines[i] == RelayLine(pieces[i])
  {
    if |pieces| == 0 then [] else [RelayLine(pieces[0])] + RelayPieces(pieces[1..])
  }

  /** The stdout relay: the lines appended to the output for one chunk. */
  function Relay(chunk: string): (lines: seq<string>)
    ensures |lines| == CountIn(chunk, {'\n'}) + 1
    ensures forall i :: 0 <= i < |lines| ==> lines[i] != SterlingPrompt
    ensures forall i :: 0 <= i < |lines| ==> NoneIn(lines[i], {'\n'})
  {
    RelayPieces(Split(chunk, {'\n'}))
  }

  /** Apart from the sentinel, the relay loses nothing: joining the lines with
      `\n` gives back the chunk, and any line differing from its piece is the
      rewritten sentinel. */
  lemma RelayFaithful(chunk: string)
    ensures var pieces := Split(chunk, {'\n'}); var lines := Relay(chunk);
      forall i :: 0 <= i < |lines| && lines[i] != pieces[i] ==>
        pieces[i] == SterlingPrompt && lines[i] == SterlingNotice
    ensures (forall i :: 0 <= i < |Split(chunk, {'\n'})| ==> Split(chunk, {'\n'})[i] != SterlingPrompt) ==>
      Join(Relay(chunk), '\n') == chunk
  {
    var pieces := Split(chunk, {'\n'});
    var lines := Relay(chunk);
    if forall i :: 0 <= i < |pieces| ==> pieces[i] != SterlingPrompt {
      assert lines == pieces;
      JoinSplit(chunk, '\n');
    }
  }
}

=== FILE: forge_locator.dfy ===
/** The client's Forge locator (client/src/extension.ts, `matchForgeError`):
    a scanner with the semantics of the non-global match of
    `/[\\/]*?([^\\/\n\s]*\.frg):(\d+):(\d+):?/`. The match starts at the
    leftmost position where the pattern succeeds; the lazy separator prefix
    consumes exactly the separators up to the name, and the greedy name
    backtracks from the end of its run to the LAST `.frg:L:C` tail it can
    reach. */
module ForgeLocator {
  import opened Common
  import opened Strings

  const Extension := ".frg"

  /** The characters `[\\/]` treats as path separators, as a test and as
      the set `split(/[\\/]/)` splits on. */
  predicate IsPathSeparator(c: char) { c == '/' || c == '\\' }

  const PathSeparators: set<char> := {'/', '\\'}

  lemma PathSeparatorsAgree(c: char)
    ensures c in PathSeparators <==> IsPathSeparator(c)
  {
  }

  /** JavaScript's `\s`. */
  predicate IsJsWhitespace(c: char)
  {
    || c == '\t' || c == '\n' || c == '\U{000B}' || c == '\U{000C}' || c == '\r' || c == ' '
    || c == '\U{00A0}' || c == '\U{1680}' || ('\U{2000}' <= c <= '\U{200A}')
    || c == '\U{2028}' || c == '\U{2029}' || c == '\U{202F}' || c == '\U{205F}'
    || c == '\U{3000}' || c == '\U{FEFF}'
  }

  /** The class `[^\\/\n\s]` of the file-name capture. */
  predicate IsNameChar(c: char) { !IsPathSeparator(c) && !IsJsWhitespace(c) }

  /** A successful match, as `String.prototype.match` reports it: `index`,
      the length of `match[0]`, the three captures, and where capture 1
      begins. */
  datatype ForgeMatch = ForgeMatch(
    index: nat,
    length: nat,
    name: string,
    lineDigits: string,
    colDigits: string,
    nameStart: nat)
  {
    /** `parseInt(match[2])` and `parseInt(match[3])`. */
    function Line(): nat requires AllDigits(lineDigits) { DigitsValue(lineDigits) }
    function Column(): nat requires AllDigits(colDigits) { DigitsValue(colDigits) }
  }

  /** The pattern can succeed with capture 1 spanning [g, p + 4): a run of
      name characters, then `.frg:`, digits, `:` and at least one digit. The
      line digits cannot stop short of their maximal run, since a digit is
      not the colon that must follow them. */
  predicate TokenAt(s: string, g: nat, p: nat)
  {
    && g <= p && p + 5 <= |s|
    && (forall k :: g <= k < p ==> IsNameChar(s[k]))
    && s[p..p + 5] == ".frg:"
    && var le := RunEnd(s, p + 5, IsDigit);
    && p + 5 < le && le + 1 < |s| && s[le] == ':' && IsDigit(s[le + 1])
  }

  /** `r` is the match the regex engine reports on `s`: its start is the
      leftmost position from which the pattern succeeds, the separators it
      skips run up to the name, and the name is the longest one available. */
  ghost predicate IsLeftmostMatch(s: string, r: ForgeMatch)
  {
    var p := r.nameStart + |r.name| - 4;
    && r.index <= r.nameStart && |r.name| >= 4 && TokenAt(s, r.nameStart, p)
    && (forall k :: r.index <= k < r.nameStart ==> IsPathSeparator(s[k]))
    && (r.index == 0 || !IsPathSeparator(s[r.index - 1]))
    && (forall g: nat, q: nat :: TokenAt(s, g, q) ==> r.index <= g)
    && (forall q: nat :: TokenAt(s, r.nameStart, q) ==> q <= p)
  }

  /** The captures and the matched text agree with the positions: name, line
      digits and column digits are the maximal runs that follow each other,
      and `match[0]` is the separators, the name, `:L:C` and the optional `:`. */
  ghost predicate Describes(s: string, r: ForgeMatch)
  {
    var le := r.nameStart + |r.name| + 1 + |r.lineDigits|;
    var ce := le + 1 + |r.colDigits|;
    && ce <= |s|
    && r.index + r.length <= |s|
    && r.name == s[r.nameStart..r.nameStart + |r.name|]
    && s[r.nameStart + |r.name|] == ':'
    && r.lineDigits == s[r.nameStart + |r.name| + 1..le]
    && |r.lineDigits| > 0 && AllDigits(r.lineDigits)
    && s[le] == ':'
    && r.colDigits == s[le + 1..ce]
    && |r.colDigits| > 0 && AllDigits(r.colDigits)
    && (ce == |s| || !IsDigit(s[ce]))
    && r.length == ce - r.index + (if ce < |s| && s[ce] == ':' then 1 else 0)
  }

  /** The tail `\.frg:(\d+):(\d+):?` tried at `p`; the digit runs are greedy
      and a shorter run could never be followed by the required colon. */
  datatype Tail = Tail(lineEnd: nat, colEnd: nat)

  function TailAt(s: string, p: nat): (r: Option<Tail>)
    ensures r.Some? ==> p + 5 < r.value.lineEnd < r.value.colEnd <= |s|
    ensures r.Some? ==> r.value.lineEnd == RunEnd(s, p + 5, IsDigit)
    ensures r.Some? ==> s[r.value.lineEnd] == ':'
    ensures r.Some? ==> r.value.colEnd == RunEnd(s, r.value.lineEnd + 1, IsDigit)
    ensures r.Some? ==> s[p..p + 5] == ".frg:"
  {
    if p + 5 <= |s| && s[p..p + 5] == ".frg:" then
      var le := RunEnd(s, p + 5, IsDigit);
      if le == p + 5 || le == |s| || s[le] != ':' then None
      else
        var ce := RunEnd(s, le + 1, IsDigit);
        if ce == le + 1 then None else Some(Tail(le, ce))
    else None
  }

  /** The tail succeeds exactly where a token may have its `.frg`. */
  lemma TailAtIffToken(s: string, g: nat, p: nat)
    requires g <= p <= |s| && forall k :: g <= k < p ==> IsNameChar(s[k])
    ensures TailAt(s, p).Some? <==> TokenAt(s, g, p)
  {
  }

  /** Backtracking of the greedy name: tries the tail at q, q - 1, ..., g and
      keeps the first (that is, the largest) position where it succeeds. */
  function LastTail(s: string, g: nat, q: nat): (r: Option<nat>)
    requires g <= q <= |s|
    ensures r.Some? ==> g <= r.value <= q && TailAt(s, r.value).Some?
    ensures forall p :: g <= p <= q && (r.None? || r.value < p) ==> TailAt(s, p).None?
    decreases q - g
  {
    if TailAt(s, q).Some? then Some(q)
    else if q == g then None
    else LastTail(s, g, q - 1)
  }

  /** The attempt that starts at `i`: the lazy prefix takes the separators up
      to `g`, the name is backtracked from the end of its run. */
  function MatchAt(s: string, i: nat): (r: Option<ForgeMatch>)
    requires i <= |s|
    ensures r.Some? ==> r.value.index == i && r.value.nameStart == RunEnd(s, i, IsPathSeparator)
    ensures r.Some? ==> AllDigits(r.value.lineDigits) && AllDigits(r.value.colDigits)
    ensures r.Some? ==> r.value.index + r.value.length <= |s|
  {
    var g := RunEnd(s, i, IsPathSeparator);
    var m := RunEnd(s, g, IsNameChar);
    var last := LastTail(s, g, m);
    if last.None? then None
    else
      var p := last.value;
      var t := TailAt(s, p).value;
      var end := if t.colEnd < |s| && s[t.colEnd] == ':' then t.colEnd + 1 else t.colEnd;
      Some(ForgeMatch(i, end - i, s[g..p + 4], s[p + 5..t.lineEnd], s[t.lineEnd + 1..t.colEnd], g))
  }

  /** A failed attempt means no token has its name starting where the
      separators end. */
  lemma MatchAtNone(s: string, i: nat)
    requires i <= |s| && MatchAt(s, i).None?
    ensures forall p: nat :: !TokenAt(s, RunEnd(s, i, IsPathSeparator), p)
  {
    var g := RunEnd(s, i, IsPathSeparator);
    LastTailFindsGreatestToken(s, g, RunEnd(s, g, IsNameChar));
  }

  /** A successful attempt has found a token, with the longest name
      available. */
  lemma MatchAtToken(s: string, i: nat)
    requires i <= |s| && MatchAt(s, i).Some?
    ensures var m := MatchAt(s, i).value;
      && |m.name| >= 4
      && TokenAt(s, m.nameStart, m.nameStart + |m.name| - 4)
      && (forall q: nat :: TokenAt(s, m.nameStart, q) ==> q <= m.nameStart + |m.name| - 4)
  {
    var m := MatchAt(s, i).value;
    MatchAtName(s, i);
    var g := RunEnd(s, i, IsPathSeparator);
    GreatestTokenName(s, g, RunEnd(s, g, IsNameChar), m);
  }

  /** The name of a successful attempt runs from the end of the separators
      up to the tail that the backward search found. */
  lemma MatchAtName(s: string, i: nat)
    requires i <= |s| && MatchAt(s, i).Some?
    ensures var g := RunEnd(s, i, IsPathSeparator); var last := LastTail(s, g, RunEnd(s, g, IsNameChar));
      && last.Some?
      && MatchAt(s, i).value.nameStart == g
      && g <= last.value
      && |MatchAt(s, i).value.name| == last.value + 4 - g
  {
  }

  /** A name that runs from `g` up to the tail the backward search over the
      name run `[g, m)` found is the longest name any token starting at `g`
      can have. */
  lemma GreatestTokenName(s: string, g: nat, m: nat, r: ForgeMatch)
    requires g <= |s| && m == RunEnd(s, g, IsNameChar)
    requires LastTail(s, g, m).Some? && g <= LastTail(s, g, m).value
    requires r.nameStart == g && |r.name| == LastTail(s, g, m).value + 4 - g
    ensures |r.name| >= 4
    ensures TokenAt(s, r.nameStart, r.nameStart + |r.name| - 4)
    ensures forall q: nat :: TokenAt(s, r.nameStart, q) ==> q <= r.nameStart + |r.name| - 4
  {
    LastTailFindsGreatestToken(s, g, m);
    assert r.nameStart + |r.name| - 4 == LastTail(s, g, m).value;
  }

  /** The captures of a successful attempt are the runs that follow the name. */
  lemma MatchAtDescribes(s: string, i: nat)
    requires i <= |s| && MatchAt(s, i).Some?
    ensures Describes(s, MatchAt(s, i).value)
  {
    MatchAtParts(s, i);
    var g := RunEnd(s, i, IsPathSeparator);
    var p := LastTail(s, g, RunEnd(s, g, IsNameChar)).value;
    var t := TailAt(s, p).value;
    TailShape(s, p);
    DescribesAt(s, MatchAt(s, i).value, g, p, t.lineEnd, t.colEnd);
  }

  /** A successful attempt, taken apart: the name runs from the end of the
      separators to the tail the backward search found, and the captures
      are that tail's digit runs. */
  lemma MatchAtParts(s: string, i: nat)
    requires i <= |s| && MatchAt(s, i).Some?
    ensures var g := RunEnd(s, i, IsPathSeparator); var last := LastTail(s, g, RunEnd(s, g, IsNameChar));
      && last.Some? && i <= g <= last.value && TailAt(s, last.value).Some?
      && var p := last.value; var t := TailAt(s, p).value; var r := MatchAt(s, i).value;
      && r.index == i && r.nameStart == g
      && r.name == s[g..p + 4]
      && r.lineDigits == s[p + 5..t.lineEnd]
      && r.colDigits == s[t.lineEnd + 1..t.colEnd]
      && r.length == (if t.colEnd < |s| && s[t.colEnd] == ':' then t.colEnd + 1 else t.colEnd) - r.index
  {
  }

  /** The positional reading of a match built from a tail at `p` whose digit
      runs end at `le` and `ce`. */
  lemma DescribesAt(s: string, r: ForgeMatch, g: nat, p: nat, le: nat, ce: nat)
    requires p + 5 < le && le + 1 < ce <= |s|
    requires s[p + 4] == ':' && s[le] == ':'
    requires AllDigits(s[p + 5..le]) && AllDigits(s[le + 1..ce]) && (ce == |s| || !IsDigit(s[ce]))
    requires r.index <= g <= p && r.nameStart == g
    requires r.name == s[g..p + 4]
    requires r.lineDigits == s[p + 5..le]
    requires r.colDigits == s[le + 1..ce]
    requires r.length == (if ce < |s| && s[ce] == ':' then ce + 1 else ce) - r.index
    ensures Describes(s, r)
  {
    assert r.nameStart + |r.name| + 1 + |r.lineDigits| == le;
    assert le + 1 + |r.colDigits| == ce;
  }

  /** What a successful tail at `p` guarantees, without its scanning. */
  lemma TailShape(s: string, p: nat)
    requires TailAt(s, p).Some?
    ensures var t := TailAt(s, p).value;
      && p + 5 < t.lineEnd && t.lineEnd + 1 < t.colEnd <= |s|
      && s[p + 4] == ':' && s[t.lineEnd] == ':'
      && AllDigits(s[p + 5..t.lineEnd]) && AllDigits(s[t.lineEnd + 1..t.colEnd])
      && (t.colEnd == |s| || !IsDigit(s[t.colEnd]))
  {
    var t := TailAt(s, p).value;
    assert s[p + 4] == s[p..p + 5][4];
    RunIsDigits(s, p + 5, t.lineEnd);
    RunIsDigits(s, t.lineEnd + 1, t.colEnd);
  }

  /** A run of digits read off the line is a digit string. */
  lemma RunIsDigits(s: string, a: nat, b: nat)
    requires a <= b <= |s| && b == RunEnd(s, a, IsDigit)
    ensures AllDigits(s[a..b])
  {
  }

  /** Backtracking from the end of the name run finds the greatest token
      position, and finds none only when there is none. */
  lemma LastTailFindsGreatestToken(s: string, g: nat, m: nat)
    requires g <= |s| && m == RunEnd(s, g, IsNameChar)
    ensures LastTail(s, g, m).None? ==> forall p: nat :: !TokenAt(s, g, p)
    ensures LastTail(s, g, m).Some? ==> var p := LastTail(s, g, m).value;
      TokenAt(s, g, p) && forall q: nat :: TokenAt(s, g, q) ==> q <= p
  {
    var last := LastTail(s, g, m);
    forall q: nat | TokenAt(s, g, q)
      ensures last.Some? && q <= last.value
    {
      assert IsNameChar(s[q]);
      TailAtIffToken(s, g, q);
    }
    if last.Some? {
      TailAtIffToken(s, g, last.value);
    }
  }

  /** Attempts at i, i + 1, ..., |s| - 1, stopping at the first success. */
  function MatchFrom(s: string, i: nat): (r: Option<ForgeMatch>)
    requires i <= |s|
    ensures r.Some? ==> i <= r.value.index < |s| && MatchAt(s, r.value.index) == r
    ensures r.Some? ==> forall j :: i <= j < r.value.index ==> MatchAt(s, j).None?
    ensures r.None? ==> forall j :: i <= j < |s| ==> MatchAt(s, j).None?
    decreases |s| - i
  {
    if i == |s| then None
    else
      var here := MatchAt(s, i);
      if here.Some? then here else MatchFrom(s, i + 1)
  }

  /** Scanning from `i`, when no token starts before `i` and the attempt at
      `i - 1` failed, reports the leftmost match, and nothing exactly when the
      line holds no token. */
  lemma {:induction false} MatchFromSpec(s: string, i: nat)
    requires i <= |s|
    requires forall g: nat, q: nat :: TokenAt(s, g, q) ==> i <= g
    requires i > 0 ==> MatchAt(s, i - 1).None?
    ensures MatchFrom(s, i).None? <==> forall g: nat, q: nat :: !TokenAt(s, g, q)
    ensures MatchFrom(s, i).Some? ==> IsLeftmostMatch(s, MatchFrom(s, i).value) && Describes(s, MatchFrom(s, i).value)
    decreases |s| - i
  {
    if i == |s| {
      forall g: nat, q: nat | TokenAt(s, g, q) ensures false {
      }
    } else if MatchAt(s, i).Some? {
      assert MatchFrom(s, i) == MatchAt(s, i);
      LeftmostAt(s, i);
    } else {
      assert MatchFrom(s, i) == MatchFrom(s, i + 1);
      NoTokenAtFailedStart(s, i);
      forall g: nat, q: nat | TokenAt(s, g, q)
        ensures i + 1 <= g
      {
      }
      MatchFromSpec(s, i + 1);
    }
  }

  /** The first successful attempt, when no token starts earlier, is the
      leftmost match. */
  lemma LeftmostAt(s: string, i: nat)
    requires i <= |s| && MatchAt(s, i).Some?
    requires forall g: nat, q: nat :: TokenAt(s, g, q) ==> i <= g
    requires i > 0 ==> MatchAt(s, i - 1).None?
    ensures IsLeftmostMatch(s, MatchAt(s, i).value) && Describes(s, MatchAt(s, i).value)
  {
    MatchAtToken(s, i);
    MatchAtDescribes(s, i);
    if i > 0 {
      StartAfterSeparator(s, i);
    }
  }

  /** An attempt cannot succeed right after a separator whose own attempt
      failed: both skip to the same name start. */
  lemma StartAfterSeparator(s: string, i: nat)
    requires 0 < i <= |s| && MatchAt(s, i - 1).None? && MatchAt(s, i).Some?
    ensures !IsPathSeparator(s[i - 1])
  {
    MatchAtNone(s, i - 1);
    MatchAtToken(s, i);
  }

  /** A failed attempt at `i` rules out a token whose name starts at `i`: such
      a name does not start with a separator, so the attempt would have found it. */
  lemma NoTokenAtFailedStart(s: string, i: nat)
    requires i < |s| && MatchAt(s, i).None?
    ensures forall q: nat :: !TokenAt(s, i, q)
  {
    MatchAtNone(s, i);
  }

  /** `matchForgeError(line)`: `null`, or the match the regex engine
      reports; both numbers it captures are digit strings. */
  function MatchForgeError(line: string): (r: Option<ForgeMatch>)
    ensures r.Some? ==> AllDigits(r.value.lineDigits) && AllDigits(r.value.colDigits)
    ensures r.Some? ==> r.value.index + r.value.length <= |line|
  {
    MatchFrom(line, 0)
  }

  /** `matchForgeError` answers `null` exactly when no token occurs in the
      line, and otherwise reports the leftmost match, described by its
      positions. */
  lemma MatchForgeErrorSpec(line: string)
    ensures MatchForgeError(line).None? <==> forall g: nat, q: nat :: !TokenAt(line, g, q)
    ensures MatchForgeError(line).Some? ==>
      IsLeftmostMatch(line, MatchForgeError(line).value) && Describes(line, MatchForgeError(line).value)
  {
    MatchFromSpec(line, 0);
  }

  /** Shape of every match: the name ends in `.frg` and holds no separator,
      newline or whitespace; both numbers are non-empty digit strings; the
      matched span lies inside the line. */
  lemma MatchShape(line: string)
    requires MatchForgeError(line).Some?
    ensures var r := MatchForgeError(line).value;
      && |r.name| >= 4 && r.name[|r.name| - 4..] == Extension
      && (forall k :: 0 <= k < |r.name| ==> IsNameChar(r.name[k]))
      && |r.lineDigits| > 0 && AllDigits(r.lineDigits)
      && |r.colDigits| > 0 && AllDigits(r.colDigits)
      && r.index + r.length <= |line|
  {
    MatchForgeErrorSpec(line);
    NameShape(line, MatchForgeError(line).value);
  }

  lemma NameShape(s: string, r: ForgeMatch)
    requires IsLeftmostMatch(s, r) && Describes(s, r)
    ensures r.name[|r.name| - 4..] == Extension
    ensures forall k :: 0 <= k < |r.name| ==> IsNameChar(r.name[k])
  {
    var g := r.nameStart;
    var p := g + |r.name| - 4;
    assert s[p..p + 4] == s[p..p + 5][..4] == Extension;
    assert forall k :: 0 <= k < |r.name| ==> r.name[k] == s[g + k];
    assert r.name[|r.name| - 4..] == s[p..p + 4];
    forall k | 0 <= k < |r.name|
      ensures IsNameChar(r.name[k])
    {
      if k >= |r.name| - 4 {
        ExtensionIsNameChars(k - (|r.name| - 4));
        assert r.name[k] == Extension[k - (|r.name| - 4)];
      }
    }
  }

  lemma ExtensionIsNameChars(k: nat)
    requires k < |Extension|
    ensures IsNameChar(Extension[k])
  {
  }
}

=== FILE: offset_mapper.dfy ===
/** The language server's offset mapper (server/src/server.ts, the loop over
    `/(.*)\n/g` in `validateTextDocument`). The document text is scanned match
    by match; after at most `line` matches the last one seen gives
    `start = index + column` and `end = index + match length`. */
module OffsetMapper {
  import opened Common
  import opened Strings

  /** The characters JavaScript's `.` refuses to match. */
  predicate IsLineTerminator(c: char)
  {
    c == '\n' || c == '\r' || c == '\U{2028}' || c == '\U{2029}'
  }

  predicate NotNewline(c: char) { c != '\n' }

  /** A match of `/(.*)\n/`: where it starts and how many characters it spans
      (the `\n` included). */
  datatype LineMatch = LineMatch(index: nat, length: nat)
  {
    function End(): nat { index + length }
  }

  /** A zero-indexed character-offset range. */
  datatype OffsetRange = OffsetRange(start: nat, end: nat)

  /** The leftmost position in [lo, hi) after which no line terminator occurs
      before `hi`. */
  function LastRunStart(text: string, lo: nat, hi: nat): (p: nat)
    requires lo <= hi <= |text|
    ensures lo <= p <= hi
    ensures forall k :: p <= k < hi ==> !IsLineTerminator(text[k])
    ensures p > lo ==> IsLineTerminator(text[p - 1])
    decreases hi - lo
  {
    if hi == lo || IsLineTerminator(text[hi - 1]) then hi else LastRunStart(text, lo, hi - 1)
  }

  /** One `exec` of the global regex `/(.*)\n/g` with `lastIndex` at `from`.
      `.*` stops at the first line terminator, so a match at `p` needs that
      terminator to be `\n`; the leftmost such `p` is the start of the
      terminator-free run that ends at the first `\n` at or after `from`. */
  function ExecLine(text: string, from: nat): (r: Option<LineMatch>)
    ensures r.Some? ==> from <= r.value.index && 0 < r.value.length && r.value.End() <= |text|
  {
    if from >= |text| then None
    else
      var nl := RunEnd(text, from, NotNewline);
      if nl == |text| then None
      else
        var p := LastRunStart(text, from, nl);
        Some(LineMatch(p, nl + 1 - p))
  }

  /** What one `exec` returns: the match ends just past the first `\n` at or
      after `from`, and starts right after the last other line terminator
      before it (or at `from`); no match exactly when no `\n` remains. */
  lemma ExecLineSpec(text: string, from: nat)
    ensures var r := ExecLine(text, from);
      && (r.Some? ==> text[r.value.End() - 1] == '\n')
      && (r.Some? ==> forall k :: r.value.index <= k < r.value.End() - 1 ==> !IsLineTerminator(text[k]))
      && (r.Some? ==> forall k :: from <= k < r.value.End() - 1 ==> text[k] != '\n')
      && (r.Some? ==> r.value.index == from || IsLineTerminator(text[r.value.index - 1]))
      && (r.None? <==> forall k :: from <= k < |text| ==> text[k] != '\n')
  {
  }

  /** Every match successive `exec` calls return, starting with `lastIndex`
      at `from` (each call moves `lastIndex` to the end of its match). */
  function MatchesFrom(text: string, from: nat): (ms: seq<LineMatch>)
    ensures forall j :: 0 <= j < |ms| ==>
      from <= ms[j].index && 0 < ms[j].length && ms[j].End() <= |text| && text[ms[j].End() - 1] == '\n'
    decreases |text| - from
  {
    ExecLineSpec(text, from);
    match ExecLine(text, from)
    case None => []
    case Some(m) => [m] + MatchesFrom(text, m.End())
  }

  function LineMatches(text: string): seq<LineMatch>
  {
    MatchesFrom(text, 0)
  }

  /** The range the loop leaves behind: the last match it consumed, which is
      match number min(line, matches) (1-based); (0, 0) when the line is 0 or
      the text has no `\n`. */
  function MappedRange(text: string, line: nat, column: nat): (r: OffsetRange)
    ensures r.end <= |text|
    ensures r.end == 0 <==> line == 0 || |LineMatches(text)| == 0
    ensures r.end > 0 ==> text[r.end - 1] == '\n' && r.start >= column
  {
    var ms := LineMatches(text);
    if line == 0 || |ms| == 0 then OffsetRange(0, 0)
    else
      var m := ms[Min(line, |ms|) - 1];
      OffsetRange(m.index + column, m.End())
  }

  /** The loop of `validateTextDocument`, as written: `start` and `end` start at
      0 and each match overwrites them, with no `- 1` on the column. */
  method ScanRange(text: string, line: nat, column: nat) returns (start: nat, end: nat)
    ensures OffsetRange(start, end) == MappedRange(text, line, column)
  {
    start, end := 0, 0;
    if line != 0 {
      ghost var ms := LineMatches(text);
      ghost var done := 0;
      var remaining: nat := line;
      var lastIndex: nat := 0;
      var more := true;
      while remaining > 0 && more
        invariant done + remaining == line
        invariant done <= |ms|
        invariant MatchesFrom(text, lastIndex) == ms[done..]
        invariant !more ==> done == |ms|
        invariant done == 0 ==> start == 0 && end == 0
        invariant done > 0 ==> start == ms[done - 1].index + column && end == ms[done - 1].End()
        decreases remaining, more
      {
        var m := ExecLine(text, lastIndex);
        MatchesFromStep(text, lastIndex);
        if m.None? {
          more := false;
        } else {
          SuffixStep(ms, done, m.value, MatchesFrom(text, m.value.End()));
          start := m.value.index + column;
          end := m.value.End();
          lastIndex := end;
          remaining := remaining - 1;
          done := done + 1;
        }
      }
      MappedRangeAfter(text, line, column, done);
    }
  }

  /** Where the loop of `ScanRange` stops: after `line` matches, or after the
      last one. */
  lemma MappedRangeAfter(text: string, line: nat, column: nat, done: nat)
    requires line != 0 && done <= line && done <= |LineMatches(text)|
    requires done == line || done == |LineMatches(text)|
    ensures var ms := LineMatches(text);
      MappedRange(text, line, column) ==
        if done == 0 then OffsetRange(0, 0)
        else OffsetRange(ms[done - 1].index + column, ms[done - 1].End())
  {
  }

  /** One `exec` peels the first match off the remaining ones. */
  lemma MatchesFromStep(text: string, from: nat)
    ensures ExecLine(text, from).None? ==> MatchesFrom(text, from) == []
    ensures ExecLine(text, from).Some? ==>
      MatchesFrom(text, from) == [ExecLine(text, from).value] + MatchesFrom(text, ExecLine(text, from).value.End())
  {
  }

  lemma SuffixStep<T>(xs: seq<T>, k: nat, x: T, rest: seq<T>)
    requires k <= |xs| && xs[k..] == [x] + rest
    ensures k < |xs| && xs[k] == x && xs[k + 1..] == rest
  {
    assert xs[k..][0] == x;
    assert xs[k + 1..] == xs[k..][1..];
  }

  /** Positions of the `\n` characters at or after `from`, in increasing order. */
  function NewlinesFrom(text: string, from: nat): seq<nat>
    decreases |text| - from
  {
    if from >= |text| then []
    else if text[from] == '\n' then [from] + NewlinesFrom(text, from + 1)
    else NewlinesFrom(text, from + 1)
  }

  /** The list holds every `\n` at or after `from`, each once, in increasing
      order, and nothing else. */
  lemma {:induction false} NewlinesFromExact(text: string, from: nat)
    ensures forall j :: 0 <= j < |NewlinesFrom(text, from)| ==>
      from <= NewlinesFrom(text, from)[j] < |text| && text[NewlinesFrom(text, from)[j]] == '\n'
    ensures forall j, k :: 0 <= j < k < |NewlinesFrom(text, from)| ==>
      NewlinesFrom(text, from)[j] < NewlinesFrom(text, from)[k]
    ensures forall k :: from <= k < |text| && text[k] == '\n' ==> k in NewlinesFrom(text, from)
    decreases |text| - from
  {
    if from < |text| {
      NewlinesFromExact(text, from + 1);
      var ns, ns' := NewlinesFrom(text, from), NewlinesFrom(text, from + 1);
      if text[from] == '\n' {
        assert ns == [from] + ns';
        assert forall j :: 0 < j < |ns| ==> ns[j] == ns'[j - 1];
      } else {
        assert ns == ns';
      }
    }
  }

  /** Positions of all the `\n` characters of the text. */
  function Newlines(text: string): seq<nat>
  {
    NewlinesFrom(text, 0)
  }

  /** The text has no line terminator other than `\n`. */
  predicate OnlyNewlineTerminators(text: string)
  {
    forall k :: 0 <= k < |text| ==> text[k] == '\n' || !IsLineTerminator(text[k])
  }

  /** Offset where the 1-based line `l` starts: 0, or just past newline `l - 1`. */
  function LineStart(text: string, l: nat): nat
    requires 1 <= l <= |Newlines(text)| + 1
  {
    if l == 1 then 0 else Newlines(text)[l - 2] + 1
  }

  lemma {:induction false} NewlinesFromSkip(text: string, from: nat, upto: nat)
    requires from <= upto <= |text|
    requires forall k :: from <= k < upto ==> text[k] != '\n'
    ensures NewlinesFrom(text, from) == NewlinesFrom(text, upto)
    decreases upto - from
  {
    if from < upto {
      NewlinesFromSkip(text, from + 1, upto);
    }
  }

  lemma ExecLineOnCleanText(text: string, from: nat)
    requires OnlyNewlineTerminators(text)
    requires ExecLine(text, from).Some?
    ensures ExecLine(text, from).value.index == from
  {
    ExecLineSpec(text, from);
  }

  /** Without stray terminators the matches are exactly the `\n`-terminated
      lines: match j spans from just past the previous newline (or `from`) to
      just past newline j. */
  lemma {:induction false} CleanMatchesFrom(text: string, from: nat)
    requires OnlyNewlineTerminators(text)
    requires from <= |text|
    ensures Aligned(MatchesFrom(text, from), NewlinesFrom(text, from), from)
    decreases |text| - from
  {
    if ExecLine(text, from).None? {
      ExecLineSpec(text, from);
      NewlinesFromSkip(text, from, |text|);
    } else {
      var m := ExecLine(text, from).value;
      CleanMatchStep(text, from);
      CleanMatchesFrom(text, m.End());
      AlignedCons(m, MatchesFrom(text, m.End()), NewlinesFrom(text, m.End()), from);
    }
  }

  /** Match j spans from just past newline j - 1 (or from `from`) to just past
      newline j. */
  ghost predicate Aligned(ms: seq<LineMatch>, ns: seq<nat>, from: nat)
  {
    && |ms| == |ns|
    && (forall j :: 0 <= j < |ms| ==> ms[j].End() == ns[j] + 1)
    && (forall j :: 0 < j < |ms| ==> ms[j].index == ns[j - 1] + 1)
    && (|ms| > 0 ==> ms[0].index == from)
  }

  lemma AlignedCons(m: LineMatch, ms: seq<LineMatch>, ns: seq<nat>, from: nat)
    requires m.index == from && m.length > 0
    requires Aligned(ms, ns, m.End())
    ensures Aligned([m] + ms, [m.End() - 1] + ns, from)
  {
    var ms', ns' := [m] + ms, [m.End() - 1] + ns;
    forall j | 0 < j < |ms'|
      ensures ms'[j].End() == ns'[j] + 1
    {
      assert ms'[j] == ms[j - 1] && ns'[j] == ns[j - 1];
    }
    forall j | 1 < j < |ms'|
      ensures ms'[j].index == ns'[j - 1] + 1
    {
      assert ms'[j] == ms[j - 1] && ns'[j - 1] == ns[j - 2];
    }
  }

  /** One step of the scan on clean text: the first match starts at `from`
      and ends just past the first `\n`, which heads the newline list. */
  lemma CleanMatchStep(text: string, from: nat)
    requires OnlyNewlineTerminators(text)
    requires ExecLine(text, from).Some?
    ensures var m := ExecLine(text, from).value;
      && m.index == from
      && MatchesFrom(text, from) == [m] + MatchesFrom(text, m.End())
      && NewlinesFrom(text, from) == [m.End() - 1] + NewlinesFrom(text, m.End())
  {
    var m := ExecLine(text, from).value;
    ExecLineSpec(text, from);
    ExecLineOnCleanText(text, from);
    NewlinesFromSkip(text, from, m.End() - 1);
  }

  /** The offset mapper on a text whose only line terminator is `\n`, with k
      the number of `\n`-terminated lines: line 0 or k = 0 gives (0, 0); for
      1 <= line <= k the start is the line's first offset plus the column
      (no `- 1`) and the end is just past the line's `\n`; a line beyond k
      is clamped to line k. */
  lemma MappedRangeOnLines(text: string, line: nat, column: nat)
    requires OnlyNewlineTerminators(text)
    ensures var r := MappedRange(text, line, column); var ns := Newlines(text);
      && (line == 0 || |ns| == 0 ==> r == OffsetRange(0, 0))
      && (1 <= line <= |ns| ==>
           r == OffsetRange(LineStart(text, line) + column, ns[line - 1] + 1))
      && (line > |ns| >= 1 ==> r == MappedRange(text, |ns|, column))
  {
    var ms, ns := LineMatches(text), Newlines(text);
    CleanMatchesFrom(text, 0);
    assert Aligned(ms, ns, 0);
    if 1 <= line <= |ns| {
      assert ms[line - 1].End() == ns[line - 1] + 1;
      assert ms[line - 1].index == LineStart(text, line);
    }
  }

  /** The end of a located range lies inside the text, just past a `\n`, and
      the start is at or after the start of the chosen line; nothing bounds
      the start by the end when the column exceeds the line's length. */
  lemma MappedRangeBounds(text: string, line: nat, column: nat)
    requires OnlyNewlineTerminators(text)
    requires line >= 1 && |Newlines(text)| >= 1
    ensures var r := MappedRange(text, line, column); var l := Min(line, |Newlines(text)|);
      && 0 < r.end <= |text|
      && text[r.end - 1] == '\n'
      && r.start >= LineStart(text, l)
      && r.end == Newlines(text)[l - 1] + 1
  {
    MappedRangeOnLines(text, line, column);
    MappedRangeOnLines(text, Min(line, |Newlines(text)|), column);
    NewlinesFromExact(text, 0);
  }

  /** On "ab\ncd\n", line 2 and column 1 give the range [4, 6): the start is
      offset 3 of the line plus the column, one past the character a
      one-indexed column 1 designates, and the end includes the `\n`. */
  lemma ColumnIsNotDecremented()
    ensures MappedRange("ab\ncd\n", 2, 1) == OffsetRange(4, 6)
  {
    var text := "ab\ncd\n";
    assert NewlinesFrom(text, 6) == [];
    assert NewlinesFrom(text, 5) == [5];
    assert NewlinesFrom(text, 3) == [5];
    assert NewlinesFrom(text, 2) == [2, 5];
    assert Newlines(text) == [2, 5];
    MappedRangeOnLines(text, 2, 1);
  }
}

=== FILE: run_supervisor.dfy ===
/** The client's single-slot run supervisor (client/src/extension.ts,
    `racketGlobal`, `runFile`, `stopRun`, `killRacket` and the stdout, stderr
    and exit callbacks of each spawned process), as a sequential event
    machine. A process is an opaque id handed out in spawn order; every
    callback first checks that its process is still the global one and
    otherwise does nothing. The observable behaviour is a list of effects on
    the editor and the output channel. */
module RunSupervisor {
  import opened Common
  import opened Strings
  import opened ForgeClient

  type Pid = nat

  /** What one spawned process remembers: the file it runs and the stderr it
      has accumulated (`myStderr`). */
  datatype Proc = Proc(path: string, stderr: string)

  /** `racketGlobal` (absent when null), the id the next spawn receives, every
      process spawned so far, and the `Forge Eval` diagnostic collection. */
  datatype State = State(
    global: Option<Pid>,
    next: Pid,
    procs: map<Pid, Proc>,
    diagnostics: Diagnostics)
  {
    /** Ids are issued below `next`, and the global process is a spawned one. */
    predicate Valid()
    {
      && (forall p :: p in procs ==> p < next)
      && (global.Some? ==> global.value in procs)
    }
  }

  datatype Event =
    | Run(path: string)            // `forge.runFile` with `path` the active file
    | Stop                         // `forge.stopRun`
    | Stdout(pid: Pid, chunk: string)
    | Stderr(pid: Pid, chunk: string)
    | Exit(pid: Pid)
    | Changed(uri: string)         // `onDidChangeTextDocument`
    | Closed(uri: string)          // `onDidCloseTextDocument`

  datatype Effect =
    | Save                         // the active document is saved
    | Info(message: string)        // an information message pops up
    | AppendLine(text: string)     // a line is appended to `Forge Output`
    | ClearOutput
    | ShowOutput
    | Spawn(pid: Pid, path: string)
    | Kill(pid: Pid)
    | Open(request: OpenRequest)   // `showFileWithOpts`

  datatype StepResult = StepResult(state: State, effects: seq<Effect>)

  const NotForgeFileMessage := "Click on the Forge file first before hitting the run button :)"
  const TerminatingMessage := "Terminating the current Forge process ..."
  const ExitedMessage := "Forge exited."
  const FinishedMessage := "Finished running."

  /** Separators of the stderr lines handed to `sendEvalErrors`. */
  const StderrSeparators: set<char> := {'\n', '\r'}

  function Init(): (s: State)
    ensures s.Valid() && s.global.None?
  {
    State(None, 0, map[], map[])
  }

  function RunningMessage(path: string): string
  {
    "Running file \"" + path + "\" ..."
  }

  /** `killRacket(racketGlobal)`: with a global process, announce and kill it;
      with none, do nothing. */
  function KillGlobal(s: State): (effects: seq<Effect>)
    ensures s.global.None? <==> effects == []
    ensures s.global.Some? ==> effects == [AppendLine(TerminatingMessage), Kill(s.global.value)]
  {
    match s.global
    case None => []
    case Some(g) => [AppendLine(TerminatingMessage), Kill(g)]
  }

  /** Every relayed stdout line, appended in order. */
  function AppendAll(lines: seq<string>): (effects: seq<Effect>)
    ensures |effects| == |lines|
    ensures forall i :: 0 <= i < |lines| ==> effects[i] == AppendLine(lines[i])
  {
    if |lines| == 0 then [] else [AppendLine(lines[0])] + AppendAll(lines[1..])
  }

  /** The callbacks guard: events of any process other than the global one
      are dropped. */
  predicate IsCurrent(s: State, pid: Pid)
  {
    s.global == Some(pid)
  }

  function Step(s: State, e: Event): (r: StepResult)
    requires s.Valid()
    ensures r.state.Valid()
    ensures s.next <= r.state.next
    ensures r.state.global == s.global || r.state.global.None? || r.state.global == Some(s.next)
    ensures (e.Stdout? || e.Stderr? || e.Exit?) && !IsCurrent(s, e.pid) ==> r == StepResult(s, [])
    ensures r.state.global != s.global && r.state.global.Some? ==>
      e.Run? && HasFrgExtension(e.path) && r.state.global == Some(s.next)
  {
    match e
    case Run(path) =>
      if !HasFrgExtension(path) then StepResult(s, [Save, Info(NotForgeFileMessage)])
      else
        var pid := s.next;
        var s' := State(Some(pid), pid + 1, s.procs[pid := Proc(path, "")], s.diagnostics);
        StepResult(s', [Save] + KillGlobal(s) + [ClearOutput, ShowOutput, Spawn(pid, path), AppendLine(RunningMessage(path))])
    case Stop =>
      StepResult(s, KillGlobal(s))
    case Stdout(pid, chunk) =>
      if !IsCurrent(s, pid) then StepResult(s, [])
      else StepResult(s, AppendAll(Relay(chunk)))
    case Stderr(pid, chunk) =>
      if !IsCurrent(s, pid) then StepResult(s, [])
      else
        var proc := s.procs[pid];
        StepResult(s.(procs := s.procs[pid := proc.(stderr := proc.stderr + chunk)]), [])
    case Exit(pid) =>
      if !IsCurrent(s, pid) then StepResult(s, [])
      else
        var proc := s.procs[pid];
        if proc.stderr != "" then
          match SendEvalErrors(Split(proc.stderr, StderrSeparators), proc.path, s.diagnostics)
          case Threw =>
            StepResult(s, [AppendLine(proc.stderr)])
          case Completed(report) =>
            StepResult(
              State(None, s.next, s.procs, report.diagnostics),
              [AppendLine(proc.stderr), Open(report.open), AppendLine(ExitedMessage)])
        else
          StepResult(
            s.(global := None),
            [Open(OpenRequest(proc.path, None)), AppendLine(FinishedMessage)])
    case Changed(uri) =>
      StepResult(s.(diagnostics := s.diagnostics - {uri}), [])
    case Closed(uri) =>
      StepResult(s.(diagnostics := s.diagnostics - {uri}), [])
  }

  /** A sequential trace of events: the final state and every effect, in
      order. */
  function Execute(s: State, trace: seq<Event>): (r: StepResult)
    requires s.Valid()
    ensures r.state.Valid()
    decreases |trace|
  {
    if |trace| == 0 then StepResult(s, [])
    else
      var first := Step(s, trace[0]);
      var rest := Execute(first.state, trace[1..]);
      StepResult(rest.state, first.effects + rest.effects)
  }

  /** Run of a `.frg` file: save, kill and announce the previous global
      process if there was one, clear and show the output, spawn a fresh
      process under a fresh id and make it the global one. */
  lemma RunSupersedes(s: State, path: string)
    requires s.Valid() && HasFrgExtension(path)
    ensures var r := Step(s, Run(path));
      && r.state.global == Some(s.next)
      && s.next !in s.procs
      && r.state.procs == s.procs[s.next := Proc(path, "")]
      && r.state.diagnostics == s.diagnostics
      && |r.effects| >= 5
      && r.effects[0] == Save
      && r.effects[1..|r.effects| - 4] == KillGlobal(s)
      && r.effects[|r.effects| - 4..] ==
           [ClearOutput, ShowOutput, Spawn(s.next, path), AppendLine(RunningMessage(path))]
  {
  }

  /** Run of any other file only saves and explains; the slot is untouched. */
  lemma RunRejectsOtherFiles(s: State, path: string)
    requires s.Valid() && !HasFrgExtension(path)
    ensures Step(s, Run(path)) == StepResult(s, [Save, Info(NotForgeFileMessage)])
  {
  }

  /** Stop only kills: the global process stays global, so its exit callback
      still reports. */
  lemma StopKeepsGlobal(s: State)
    requires s.Valid()
    ensures Step(s, Stop).state == s
    ensures s.global.Some? ==> Kill(s.global.value) in Step(s, Stop).effects
    ensures s.global.None? ==> Step(s, Stop).effects == []
  {
  }

  /** Exit of the global process empties the slot and reports: with stderr, the
      stderr, the result of `sendEvalErrors` on its lines and "Forge exited.";
      without, an unpositioned open and "Finished running.". When
      `sendEvalErrors` throws, only the stderr has been appended and the slot
      stays occupied. */
  lemma ExitReports(s: State, pid: Pid)
    requires s.Valid() && IsCurrent(s, pid)
    ensures var r := Step(s, Exit(pid)); var proc := s.procs[pid];
      && r.state.procs == s.procs
      && (proc.stderr != "" ==>
           var outcome := SendEvalErrors(Split(proc.stderr, StderrSeparators), proc.path, s.diagnostics);
           && (outcome.Threw? ==> r == StepResult(s, [AppendLine(proc.stderr)]))
           && (outcome.Completed? ==>
                && r.state.global.None?
                && r.effects == [AppendLine(proc.stderr), Open(outcome.value.open), AppendLine(ExitedMessage)]
                && r.state.diagnostics == outcome.value.diagnostics))
      && (proc.stderr == "" ==>
           && r.state.global.None?
           && r.effects == [Open(OpenRequest(proc.path, None)), AppendLine(FinishedMessage)]
           && r.state.diagnostics == s.diagnostics)
  {
    var r := Step(s, Exit(pid));
    var proc := s.procs[pid];
    if proc.stderr == "" {
      assert r == StepResult(s.(global := None), [Open(OpenRequest(proc.path, None)), AppendLine(FinishedMessage)]);
    } else {
      match SendEvalErrors(Split(proc.stderr, StderrSeparators), proc.path, s.diagnostics)
      case Threw =>
        assert r == StepResult(s, [AppendLine(proc.stderr)]);
      case Completed(report) =>
        assert r == StepResult(
          State(None, s.next, s.procs, report.diagnostics),
          [AppendLine(proc.stderr), Open(report.open), AppendLine(ExitedMessage)]);
    }
  }

  /** An exit whose report throws leaves the slot occupied: the process is
      still the global one, so the next Stop announces and kills it again. */
  lemma RejectedExitKeepsSlot(s: State, pid: Pid)
    requires s.Valid() && IsCurrent(s, pid) && s.procs[pid].stderr != ""
    ensures SendEvalErrors(Split(s.procs[pid].stderr, StderrSeparators), s.procs[pid].path, s.diagnostics).Threw? ==>
      var r := Execute(s, [Exit(pid), Stop]);
      && r.state == s
      && r.effects == [AppendLine(s.procs[pid].stderr), AppendLine(TerminatingMessage), Kill(pid)]
  {
    if SendEvalErrors(Split(s.procs[pid].stderr, StderrSeparators), s.procs[pid].path, s.diagnostics).Threw? {
      ExitReports(s, pid);
      StopAfterUnchangedExit(s, pid);
    }
  }

  /** An exit that only appends the stderr, followed by Stop: the stderr, then
      the kill of the process that is still current. */
  lemma StopAfterUnchangedExit(s: State, pid: Pid)
    requires s.Valid() && IsCurrent(s, pid)
    requires Step(s, Exit(pid)) == StepResult(s, [AppendLine(s.procs[pid].stderr)])
    ensures Execute(s, [Exit(pid), Stop]) ==
      StepResult(s, [AppendLine(s.procs[pid].stderr), AppendLine(TerminatingMessage), Kill(pid)])
  {
    ExecutePair(s, Exit(pid), Stop);
  }

  /** Two events in a row: the state after the second, and the effects of
      the first followed by those of the second. */
  lemma ExecutePair(s: State, a: Event, b: Event)
    requires s.Valid()
    ensures var first := Step(s, a); var second := Step(first.state, b);
      Execute(s, [a, b]) == StepResult(second.state, first.effects + second.effects)
  {
    var first := Step(s, a);
    var second := Step(first.state, b);
    assert [a, b][1..] == [b];
    assert [b][1..] == [];
    assert Execute(first.state, [b]) == StepResult(second.state, second.effects + []);
    assert second.effects + [] == second.effects;
  }

  /** Stdout of the global process is relayed line for line: one appended line
      per piece of the chunk, the sentinel rewritten. */
  lemma StdoutRelayed(s: State, pid: Pid, chunk: string)
    requires s.Valid() && IsCurrent(s, pid)
    ensures var r := Step(s, Stdout(pid, chunk));
      && r.state == s
      && |r.effects| == CountIn(chunk, {'\n'}) + 1
      && forall i :: 0 <= i < |r.effects| ==> r.effects[i] == AppendLine(Relay(chunk)[i])
  {
  }

  /** Editing or closing a document clears its evaluation diagnostics and
      nothing else. */
  lemma EditClearsDiagnostics(s: State, uri: string)
    requires s.Valid()
    ensures var r := Step(s, Changed(uri));
      && uri !in r.state.diagnostics
      && (forall u :: u in s.diagnostics && u != uri ==> u in r.state.diagnostics && r.state.diagnostics[u] == s.diagnostics[u])
      && r.state.diagnostics.Keys == s.diagnostics.Keys - {uri}
      && r.state.global == s.global && r.state.procs == s.procs && r.state.next == s.next
      && r.effects == []
    ensures Step(s, Closed(uri)) == Step(s, Changed(uri))
  {
  }

  /** Events of process `pid`. */
  predicate Concerns(e: Event, pid: Pid)
  {
    (e.Stdout? || e.Stderr? || e.Exit?) && e.pid == pid
  }

  /** The trace with every event of process `pid` removed. */
  function Without(trace: seq<Event>, pid: Pid): (r: seq<Event>)
    ensures |r| <= |trace|
    ensures forall i :: 0 <= i < |r| ==> !Concerns(r[i], pid)
  {
    if |trace| == 0 then []
    else if Concerns(trace[0], pid) then Without(trace[1..], pid)
    else [trace[0]] + Without(trace[1..], pid)
  }

  /** Supersede-and-ignore: once a spawned process is no longer the global
      one it never becomes global again, so whatever it still emits, and
      whenever, changes neither the state nor the effects. */
  lemma {:induction false} SupersededProcessIsSilent(s: State, trace: seq<Event>, pid: Pid)
    requires s.Valid() && pid < s.next && !IsCurrent(s, pid)
    ensures Execute(s, trace) == Execute(s, Without(trace, pid))
    decreases |trace|
  {
    if |trace| > 0 {
      var first := Step(s, trace[0]);
      SupersededProcessIsSilent(first.state, trace[1..], pid);
      if !Concerns(trace[0], pid) {
        assert Without(trace, pid) == [trace[0]] + Without(trace[1..], pid);
        assert ([trace[0]] + Without(trace[1..], pid))[1..] == Without(trace[1..], pid);
      }
    }
  }

  /** A run that is superseded by another before it exits reports nothing on
      exit. */
  lemma SupersededExitIsSilent(s: State, path: string, other: string)
    requires s.Valid() && HasFrgExtension(path) && HasFrgExtension(other)
    ensures var first := Step(s, Run(path)).state;
      var second := Step(first, Run(other)).state;
      Step(second, Exit(s.next)) == StepResult(second, [])
  {
  }

  /** Stderr chunks of the global process accumulate in arrival order in its
      buffer, with no effect: nothing else in the state changes. */
  lemma {:induction false} StderrAccumulates(s: State, pid: Pid, chunks: seq<string>)
    requires s.Valid() && IsCurrent(s, pid)
    ensures var r := Execute(s, StderrEvents(pid, chunks));
      && r.effects == []
      && r.state.global == s.global
      && pid in r.state.procs
      && r.state.procs[pid] == s.procs[pid].(stderr := s.procs[pid].stderr + Concat(chunks))
      && (forall p :: p in s.procs && p != pid ==> p in r.state.procs && r.state.procs[p] == s.procs[p])
      && r.state.procs.Keys == s.procs.Keys
      && r.state.diagnostics == s.diagnostics
      && r.state.next == s.next
    decreases |chunks|
  {
    if |chunks| > 0 {
      var first := Step(s, Stderr(pid, chunks[0]));
      assert StderrEvents(pid, chunks)[1..] == StderrEvents(pid, chunks[1..]);
      StderrAccumulates(first.state, pid, chunks[1..]);
      assert s.procs[pid].stderr + chunks[0] + Concat(chunks[1..]) == s.procs[pid].stderr + Concat(chunks);
    } else {
      assert s.procs[pid].stderr + Concat(chunks) == s.procs[pid].stderr;
    }
  }

  function StderrEvents(pid: Pid, chunks: seq<string>): (trace: seq<Event>)
    ensures |trace| == |chunks|
    ensures forall i :: 0 <= i < |chunks| ==> trace[i] == Stderr(pid, chunks[i])
  {
    if |chunks| == 0 then [] else [Stderr(pid, chunks[0])] + StderrEvents(pid, chunks[1..])
  }

  /** Stopping the global process and then seeing it exit still produces the
      exit report: with no stderr, the unpositioned open and "Finished
      running." follow the termination notice and the kill. */
  lemma StopThenExitStillReports(s: State)
    requires s.Valid() && s.global.Some? && s.procs[s.global.value].stderr == ""
    ensures var g := s.global.value; var r := Execute(s, [Stop, Exit(g)]);
      && r.effects == [AppendLine(TerminatingMessage), Kill(g),
                       Open(OpenRequest(s.procs[g].path, None)), AppendLine(FinishedMessage)]
      && r.state.global.None?
  {
    var g := s.global.value;
    assert [Stop, Exit(g)][1..] == [Exit(g)];
    assert [Exit(g)][1..] == [];
    var exit := Step(s, Exit(g));
    assert Execute(s, [Exit(g)]) == StepResult(exit.state, exit.effects + []);
    assert Execute(s, [Stop, Exit(g)]) == StepResult(exit.state, Step(s, Stop).effects + (exit.effects + []));
  }
}

=== FILE: server_locator.dfy ===
/** The language server's stderr locator (server/src/server.ts, `parser` and the
    first half of `validateTextDocument`). Racket's stderr is searched for the
    keyed fields `line=N` and `column=M`; when either is missing the terse
    `rkt:L:C:` locator is tried instead. Every search is a non-global `exec`,
    so it yields the leftmost occurrence. */
module ServerLocator {
  import opened Common
  import opened Strings

  const LineKey := "line="
  const ColumnKey := "column="
  const RktTag := "rkt:"

  /** The pair the locator hands to the offset mapper: line 1-indexed, column
      as Racket printed it (0 for line means "no location"). */
  datatype Location = Location(line: nat, column: nat)

  /** `/key(\d+)/` matches at `i`. */
  ghost predicate KeyedAt(s: string, key: string, i: nat)
  {
    i + |key| < |s| && s[i..i + |key|] == key && IsDigit(s[i + |key|])
  }

  /** `i` is the position a non-global `exec` of `/key(\d+)/` reports. */
  ghost predicate FirstKeyedAt(s: string, key: string, i: nat)
  {
    KeyedAt(s, key, i) && forall j :: 0 <= j < i ==> !KeyedAt(s, key, j)
  }

  /** The number `\d+` captures (greedily) after `key` at `i`. */
  function KeyedValue(s: string, key: string, i: nat): nat
    requires i + |key| <= |s|
  {
    var e := RunEnd(s, i + |key|, IsDigit);
    DigitsValue(s[i + |key|..e])
  }

  datatype Hit = Hit(index: nat, value: nat)

  /** `exec` of `/key(\d+)/` from position `i` on. */
  function FindKeyedFrom(s: string, key: string, i: nat): (r: Option<Hit>)
    requires i <= |s|
    ensures r.Some? ==> i <= r.value.index && KeyedAt(s, key, r.value.index)
    ensures r.Some? ==> r.value.value == KeyedValue(s, key, r.value.index)
    ensures r.Some? ==> forall j :: i <= j < r.value.index ==> !KeyedAt(s, key, j)
    ensures r.None? ==> forall j :: i <= j ==> !KeyedAt(s, key, j)
    decreases |s| - i
  {
    if i + |key| >= |s| then None
    else if s[i..i + |key|] == key && IsDigit(s[i + |key|]) then
      Some(Hit(i, KeyedValue(s, key, i)))
    else FindKeyedFrom(s, key, i + 1)
  }

  /** `parser(stderr, /key(\d+)/)` followed by `parseInt` of the digits. */
  function FindKeyed(s: string, key: string): (r: Option<Hit>)
    ensures r.Some? ==> FirstKeyedAt(s, key, r.value.index)
    ensures r.Some? ==> r.value.value == KeyedValue(s, key, r.value.index)
    ensures r.None? <==> forall j :: !KeyedAt(s, key, j)
  {
    FindKeyedFrom(s, key, 0)
  }

  /** `/rkt:(\d+)\:(\d+):/` matches at `i`: both digit runs are maximal,
      because the character after each must be a colon. */
  predicate RktAt(s: string, i: nat)
  {
    && i + |RktTag| < |s|
    && s[i..i + |RktTag|] == RktTag
    && IsDigit(s[i + |RktTag|])
    && var le := RunEnd(s, i + |RktTag|, IsDigit);
    && le + 1 < |s| && s[le] == ':' && IsDigit(s[le + 1])
    && var ce := RunEnd(s, le + 1, IsDigit);
    && ce < |s| && s[ce] == ':'
  }

  ghost predicate FirstRktAt(s: string, i: nat)
  {
    RktAt(s, i) && forall j :: 0 <= j < i ==> !RktAt(s, j)
  }

  /** The two captures of the `rkt:L:C:` locator at `i`, as numbers. */
  function RktLocation(s: string, i: nat): Location
    requires i + |RktTag| <= |s|
  {
    var le := RunEnd(s, i + |RktTag|, IsDigit);
    var line := DigitsValue(s[i + |RktTag|..le]);
    if le < |s| then
      var ce := RunEnd(s, le + 1, IsDigit);
      Location(line, DigitsValue(s[le + 1..ce]))
    else Location(line, 0)
  }

  function FindRktFrom(s: string, i: nat): (r: Option<nat>)
    requires i <= |s|
    ensures r.Some? ==> i <= r.value && RktAt(s, r.value)
    ensures r.Some? ==> forall j :: i <= j < r.value ==> !RktAt(s, j)
    ensures r.None? ==> forall j :: i <= j ==> !RktAt(s, j)
    decreases |s| - i
  {
    if i + |RktTag| >= |s| then None
    else if RktAt(s, i) then Some(i)
    else FindRktFrom(s, i + 1)
  }

  /** The (line, column) pair `validateTextDocument` extracts from stderr: the
      keyed fields win when both are present, each from its first
      occurrence; otherwise the first `rkt:L:C:` locator; otherwise (0, 0). */
  function Locate(s: string): (loc: Location)
    ensures forall i, j :: FirstKeyedAt(s, LineKey, i) && FirstKeyedAt(s, ColumnKey, j) ==>
      loc == Location(KeyedValue(s, LineKey, i), KeyedValue(s, ColumnKey, j))
    ensures (forall i :: !KeyedAt(s, LineKey, i)) || (forall j :: !KeyedAt(s, ColumnKey, j)) ==>
      && (forall i :: FirstRktAt(s, i) ==> loc == RktLocation(s, i))
      && ((forall i :: !RktAt(s, i)) ==> loc == Location(0, 0))
  {
    var lineHit := FindKeyed(s, LineKey);
    var columnHit := FindKeyed(s, ColumnKey);
    if lineHit.Some? && columnHit.Some? then
      FirstKeyedUnique(s, LineKey, lineHit.value.index);
      FirstKeyedUnique(s, ColumnKey, columnHit.value.index);
      Location(lineHit.value.value, columnHit.value.value)
    else
      match FindRktFrom(s, 0)
      case Some(i) =>
        FirstRktUnique(s, i);
        RktLocation(s, i)
      case None => Location(0, 0)
  }

  /** At most one position is the first occurrence, so the keyed values the
      locator reports are well defined. */
  lemma FirstKeyedUnique(s: string, key: string, i: nat)
    requires FirstKeyedAt(s, key, i)
    ensures forall j :: FirstKeyedAt(s, key, j) ==> i == j
  {
  }

  lemma FirstRktUnique(s: string, i: nat)
    requires FirstRktAt(s, i)
    ensures forall j :: FirstRktAt(s, j) ==> i == j
  {
  }
}

=== FILE: server_validation.dfy ===
/** One validation run of the language server (server/src/server.ts,
    `validateTextDocument`): Racket's stderr chunks are collected behind an
    initial "\n"; on exit, unless nothing arrived, one Warning diagnostic is
    built from the located range, and the complete list for the document is
    sent, replacing whatever the client showed before. */
module ServerValidation {
  import opened Common
  import opened Strings
  import opened ServerLocator
  import opened OffsetMapper

  datatype RelatedInformation = RelatedInformation(uri: string, range: OffsetRange, message: string)

  /** A diagnostic whose range is still in character offsets (the conversion
      to line/character positions is the editor's `positionAt`). */
  datatype ServerDiagnostic = ServerDiagnostic(
    severity: DiagnosticSeverity,
    range: OffsetRange,
    message: string,
    source: string,
    related: Option<RelatedInformation>)

  /** `connection.sendDiagnostics({ uri, diagnostics })`. */
  datatype Publication = Publication(uri: string, diagnostics: seq<ServerDiagnostic>)

  const MessagePrefix := "Racket evaluation error: "
  const ReplSource := "Racket REPL"

  /** `myStderr`: the initial "\n" followed by every chunk in arrival order. */
  function CollectStderr(chunks: seq<string>): (err: string)
    ensures |err| >= 1 && err[0] == '\n'
    ensures err[1..] == Concat(chunks)
    ensures err == "\n" <==> forall i :: 0 <= i < |chunks| ==> chunks[i] == ""
  {
    ConcatEmpty(chunks);
    "\n" + Concat(chunks)
  }

  /** `myStderr += data`: each arriving chunk extends the buffer at its end. */
  lemma CollectStderrAppend(chunks: seq<string>, c: string)
    ensures CollectStderr(chunks + [c]) == CollectStderr(chunks) + c
  {
    ConcatAppend(chunks, c);
  }

  /** The range of the diagnostic: (0, 0) unless a non-zero line was located. */
  function DiagnosticRange(text: string, err: string): OffsetRange
  {
    var loc := Locate(err);
    MappedRange(text, loc.line, loc.column)
  }

  /** When stderr carries neither the keyed pair nor an `rkt:L:C:` tag, the
      line stays 0 and the diagnostic covers the empty range at offset 0. */
  lemma UnlocatedRangeIsEmpty(text: string, err: string)
    requires (forall i :: !KeyedAt(err, LineKey, i)) || (forall j :: !KeyedAt(err, ColumnKey, j))
    requires forall i :: !RktAt(err, i)
    ensures DiagnosticRange(text, err) == OffsetRange(0, 0)
  {
  }

  /** The publication that ends one run on `text`, given the stderr chunks
      Racket produced and whether the client accepts related information. */
  function Validate(uri: string, text: string, chunks: seq<string>, relatedCapability: bool): (p: Publication)
    ensures p.uri == uri
    ensures |p.diagnostics| <= 1
    ensures |p.diagnostics| == 0 <==> forall i :: 0 <= i < |chunks| ==> chunks[i] == ""
    ensures |p.diagnostics| == 1 ==>
      var d := p.diagnostics[0];
      && d.severity == Warning
      && d.message == MessagePrefix + "\n" + Concat(chunks)
      && d.source == ReplSource
      && d.range == DiagnosticRange(text, "\n" + Concat(chunks))
      && (d.related.Some? <==> relatedCapability)
      && (d.related.Some? ==> d.related.value == RelatedInformation(uri, d.range, "\n" + Concat(chunks)))
  {
    var err := CollectStderr(chunks);
    if err == "\n" then Publication(uri, [])
    else
      var range := DiagnosticRange(text, err);
      var related := if relatedCapability then Some(RelatedInformation(uri, range, err)) else None;
      Publication(uri, [ServerDiagnostic(Warning, range, MessagePrefix + err, ReplSource, related)])
  }

  /** The client's view of the server's diagnostics: each publication replaces
      the list for its document and leaves every other document alone. */
  function Apply(store: map<string, seq<ServerDiagnostic>>, p: Publication): (r: map<string, seq<ServerDiagnostic>>)
    ensures p.uri in r && r[p.uri] == p.diagnostics
    ensures r.Keys == store.Keys + {p.uri}
    ensures forall u :: u in store && u != p.uri ==> r[u] == store[u]
  {
    store[p.uri := p.diagnostics]
  }

  /** Publications for one document do not accumulate: after a sequence of
      runs only the last one's list is visible. */
  lemma {:induction false} LastPublicationWins(store: map<string, seq<ServerDiagnostic>>, ps: seq<Publication>, uri: string)
    requires |ps| > 0
    requires forall i :: 0 <= i < |ps| ==> ps[i].uri == uri
    ensures ApplyAll(store, ps) == Apply(store, ps[|ps| - 1])
    decreases |ps|
  {
    if |ps| > 1 {
      LastPublicationWins(Apply(store, ps[0]), ps[1..], uri);
    }
  }

  function ApplyAll(store: map<string, seq<ServerDiagnostic>>, ps: seq<Publication>): map<string, seq<ServerDiagnostic>>
    decreases |ps|
  {
    if |ps| == 0 then store else ApplyAll(Apply(store, ps[0]), ps[1..])
  }
}

=== FILE: strings.dfy ===
/** Character classes, digit strings, splitting and concatenation shared by the
    server-side and client-side locators. Strings are `seq<char>`. */
module Strings {

  /** JavaScript's `\d`: the ASCII digits only. */
  predicate IsDigit(c: char) { '0' <= c <= '9' }

  predicate AllDigits(s: string) { forall k :: 0 <= k < |s| ==> IsDigit(s[k]) }

  function DigitValue(c: char): nat
    requires IsDigit(c)
  {
    c as int - '0' as int
  }

  function DigitChar(d: nat): (c: char)
    requires d < 10
    ensures IsDigit(c) && DigitValue(c) == d
  {
    ['0', '1', '2', '3', '4', '5', '6', '7', '8', '9'][d]
  }

  /** The number `parseInt` reads from a non-empty string of ASCII digits
      (leading zeros allowed, no overflow: the value is unbounded). */
  function DigitsValue(ds: string): nat
    requires AllDigits(ds)
  {
    if |ds| == 0 then 0 else 10 * DigitsValue(ds[..|ds| - 1]) + DigitValue(ds[|ds| - 1])
  }

  /** The decimal rendering JavaScript gives a non-negative integer; it has no
      leading zero and `parseInt` reads it back. */
  function NatToDigits(n: nat): (ds: string)
    ensures |ds| > 0 && AllDigits(ds)
    ensures ds[0] == '0' ==> ds == "0"
    ensures DigitsValue(ds) == n
  {
    if n < 10 then [DigitChar(n)]
    else
      var prefix := NatToDigits(n / 10);
      var ds := prefix + [DigitChar(n % 10)];
      assert ds[..|ds| - 1] == prefix;
      ds
  }

  /** The decimal rendering of an integer, as a template literal shows it. */
  function IntToString(i: int): (s: string)
    ensures |s| > 0
    ensures i >= 0 ==> AllDigits(s) && DigitsValue(s) == i
    ensures i < 0 ==> s[0] == '-' && AllDigits(s[1..]) && DigitsValue(s[1..]) == -i
    ensures i >= 0 && s[0] == '0' ==> s == "0"
    ensures i < 0 ==> |s| > 1 && s[1] != '0'
  {
    if i >= 0 then NatToDigits(i) else "-" + NatToDigits(-i)
  }

  /** End of the maximal run of characters satisfying `P` that starts at `i`. */
  function RunEnd(s: string, i: nat, P: char -> bool): (r: nat)
    requires i <= |s|
    ensures i <= r <= |s|
    ensures forall k :: i <= k < r ==> P(s[k])
    ensures r < |s| ==> !P(s[r])
    decreases |s| - i
  {
    if i == |s| || !P(s[i]) then i else RunEnd(s, i + 1, P)
  }

  /** Number of characters of `s` that belong to `cs`. */
  function CountIn(s: string, cs: set<char>): nat
  {
    if |s| == 0 then 0 else (if s[0] in cs then 1 else 0) + CountIn(s[1..], cs)
  }

  predicate NoneIn(s: string, cs: set<char>) { forall k :: 0 <= k < |s| ==> s[k] !in cs }

  lemma {:induction false} CountInZero(s: string, cs: set<char>)
    ensures CountIn(s, cs) == 0 <==> NoneIn(s, cs)
  {
    if |s| > 0 {
      CountInZero(s[1..], cs);
      assert forall k :: 1 <= k < |s| ==> s[k] == s[1..][k - 1];
    }
  }

  /** `s.split(/[...]/)`: the pieces between separator characters, in order;
      a separator at either end yields an empty piece, and "" yields [""]. */
  function Split(s: string, seps: set<char>): (pieces: seq<string>)
    ensures |pieces| == CountIn(s, seps) + 1
    ensures forall i :: 0 <= i < |pieces| ==> NoneIn(pieces[i], seps)
  {
    if |s| == 0 then [""]
    else
      var rest := Split(s[1..], seps);
      if s[0] in seps then [""] + rest
      else [[s[0]] + rest[0]] + rest[1..]
  }

  /** The inverse of splitting on one character. */
  function Join(pieces: seq<string>, sep: char): string
    requires |pieces| > 0
  {
    if |pieces| == 1 then pieces[0] else pieces[0] + [sep] + Join(pieces[1..], sep)
  }

  lemma {:induction false} JoinSplit(s: string, sep: char)
    ensures Join(Split(s, {sep}), sep) == s
  {
    if |s| > 0 {
      JoinSplit(s[1..], sep);
      var rest := Split(s[1..], {sep});
      if s[0] != sep {
        var pieces := Split(s, {sep});
        assert pieces[0] == [s[0]] + rest[0];
        if |rest| == 1 {
          assert pieces == [[s[0]] + rest[0]];
        } else {
          assert pieces[1..] == rest[1..];
          assert Join(pieces, sep) == [s[0]] + (rest[0] + [sep] + Join(rest[1..], sep));
        }
      }
    }
  }

  /** The value `pop()` returns after a split. */
  function LastPiece(s: string, seps: set<char>): string
  {
    var pieces := Split(s, seps);
    pieces[|pieces| - 1]
  }

  /** The last piece is the suffix after the last separator (all of `s` when
      there is none). */
  lemma {:induction false} LastPieceIsSuffix(s: string, seps: set<char>)
    ensures var t := LastPiece(s, seps);
      && |t| <= |s|
      && s[|s| - |t|..] == t
      && NoneIn(t, seps)
      && (|t| < |s| ==> s[|s| - |t| - 1] in seps)
  {
    if |s| > 0 {
      LastPieceStep(s, seps);
      if s[0] !in seps && NoneIn(s[1..], seps) {
        assert s == [s[0]] + s[1..];
        assert NoneIn(s, seps) by {
          forall k | 0 < k < |s|
            ensures s[k] !in seps
          {
            assert s[k] == s[1..][k - 1];
          }
        }
      } else {
        LastPieceIsSuffix(s[1..], seps);
        var u := LastPiece(s[1..], seps);
        assert s[1..][|s| - 1 - |u|..] == s[|s| - |u|..];
        if |u| < |s| - 1 {
          assert s[|s| - |u| - 1] == s[1..][|s| - 1 - |u| - 1];
        } else {
          assert u == s[1..];
        }
      }
    }
  }

  /** How the last piece of `s` relates to that of `s[1..]`. */
  lemma LastPieceStep(s: string, seps: set<char>)
    requires |s| > 0
    ensures s[0] !in seps && NoneIn(s[1..], seps) ==> LastPiece(s, seps) == s
    ensures !(s[0] !in seps && NoneIn(s[1..], seps)) ==> LastPiece(s, seps) == LastPiece(s[1..], seps)
  {
    CountInZero(s[1..], seps);
    var rest := Split(s[1..], seps);
    if s[0] !in seps && NoneIn(s[1..], seps) {
      SplitWithoutSeparator(s[1..], seps);
      assert [s[0]] + s[1..] == s;
    }
  }

  /** A string free of separators is a single piece. */
  lemma {:induction false} SplitWithoutSeparator(s: string, seps: set<char>)
    requires NoneIn(s, seps)
    ensures Split(s, seps) == [s]
  {
    if |s| > 0 {
      SplitWithoutSeparator(s[1..], seps);
      assert [s[0]] + s[1..] == s;
    }
  }

  /** The last piece is what follows the last separator. */
  lemma {:induction false} LastPieceAfterSeparator(a: string, c: char, b: string, seps: set<char>)
    requires c in seps && NoneIn(b, seps)
    ensures LastPiece(a + [c] + b, seps) == b
    decreases |a|
  {
    var s := a + [c] + b;
    if |a| == 0 {
      assert s[1..] == b;
      SplitWithoutSeparator(b, seps);
    } else {
      assert s[1..] == a[1..] + [c] + b;
      LastPieceAfterSeparator(a[1..], c, b, seps);
      CountInZero(s[1..], seps);
      assert s[1..][|a| - 1] == c;
    }
  }

  /** All chunks glued together in arrival order. */
  function Concat(chunks: seq<string>): string
  {
    if |chunks| == 0 then "" else chunks[0] + Concat(chunks[1..])
  }

  lemma {:induction false} ConcatEmpty(chunks: seq<string>)
    ensures Concat(chunks) == "" <==> forall i :: 0 <= i < |chunks| ==> chunks[i] == ""
  {
    if |chunks| > 0 {
      ConcatEmpty(chunks[1..]);
      assert forall i :: 1 <= i < |chunks| ==> chunks[i] == chunks[1..][i - 1];
    }
  }

  lemma {:induction false} ConcatAppend(chunks: seq<string>, c: string)
    ensures Concat(chunks + [c]) == Concat(chunks) + c
  {
    if |chunks| == 0 {
      assert chunks + [c] == [c];
    } else {
      assert (chunks + [c])[1..] == chunks[1..] + [c];
      ConcatAppend(chunks[1..], c);
    }
  }
}
